=== FILE: README.md ===
# MarkUs assignments, modelled in Dafny

This project models the `Assignment` model of MarkUs, a Rails application for
marking student work (`app/models/assignment.rb`). An assignment owns
*groupings*: a grouping links the assignment to a *group*, which holds a
repository. Students and TAs join a grouping through *memberships*, each with
a type (student or TA) and a status (inviter, accepted, pending, …).

The database is an immutable snapshot, `Entities.State`. It has one map per
table, keyed by row id, and one id counter per table. `Entities.Wf` is the
consistency invariant of that snapshot:

- every key lies below its table's counter;
- every grouping points at an existing group;
- every membership points at an existing grouping.

The finders the model reads have no `:order`:

- `Grouping.find_all_by_assignment_id`;
- `groupings` of an assignment;
- `memberships` of a grouping;
- the joins of `valid_groupings` and `assigned_groupings`.

The database decides their row order. The model assumes ascending id order
(`Store.KeysWhere`). Every "in order" below rests on that assumption.

Every operation that saves rows takes a snapshot and returns the snapshot after
its saves, together with what the Ruby method returns or raises. Three
operations end in a `save` or an `each` whose value callers do not use, and
return the updated record instead:

- `Formation.CloneGroupingsFrom` returns the updated in-memory `self`. Ruby's
  `clone_groupings_from` returns the value of its last `each`.
- `Results.SetResultsAverage` returns the assignment with its new average,
  inside the outcome `Averaged`. Ruby's `set_results_average` returns the
  boolean of `self.save` (lines 164 and 169).
- `Reports.ReplaceSubmissionRule` returns the updated assignment and the rule
  it destroyed. Ruby's `replace_submission_rule` returns the boolean of
  `self.save` (lines 342 and 346).

Modules, in dependency order:

- `Entities`: the rows and the snapshot.
- `Store`: id-ordered lookups, the `find` queries, and the insertion of
  groups, groupings and memberships.
- `Lists`: `Keep` (Ruby's select) and `Minus` (array difference).
- `Text`: `String#strip`, decimal rendering of ids and revisions, and string
  order.
- `GroupSize`: group-size validation, `group_assignment?`, `individual?` and
  `past_due_date?`.
- `Formation`: `add_group`, `clone_groupings_from` and `add_csv_group`.
- `Queries`: the student and grouping lists.
- `Results`: `total_mark` and `set_results_average`.
- `Reports`: `get_svn_commands` and `replace_submission_rule`.

Some inputs come from code outside this model. They are parameters:

- the clock (`now`);
- `has_accepted_grouping_for?` and `Grouping#pending?`, as predicates on students;
- `get_submission_used`, as a function from grouping id to an optional submission;
- `repository_external_access_url`, as a function on groups;
- the status `Grouping#add_member` gives when none is passed, as a `Status`.

Behaviours modelled as the code has them:

- `add_csv_group` stops at the first unknown user name. It returns that name,
  and the rows it saved before stopping stay saved.
- The CSV import does not check whether the assignment already has a grouping
  for the named group.
- `valid_groupings` counts every student membership, whatever its status.
- The class average and the percentage use Ruby's integer division, which
  rounds down. They are not rounded to the nearest integer.

## Model

| member | source | states |
|---|---|---|
| GroupSize.Validate | app/models/assignment.rb:24-33 | an error for `group_min` is recorded iff it is not positive, one for `group_max` iff it is below `group_min`, and none iff `0 < group_min <= group_max` |
| GroupSize.GroupAssignmentIsNotIndividual | app/models/assignment.rb:82-84 | for a valid assignment where instructors do not form the groups (`instructor_form_groups` false), `group_assignment?` holds iff `individual?` does not |
| GroupSize.InstructorFormedSingletonIsBoth | app/models/assignment.rb:131-133 | an instructor-formed assignment with one student per group is valid and counts as both a group and an individual assignment |
| GroupSize.PastDueDateIsStrictAndMonotone | app/models/assignment.rb:45-47 | the due date itself is not past; once past, a later clock reading is past too |
| Store.FirstGroupNamed | app/models/assignment.rb:184-185 | finds a group carrying the name, the one with the smallest id, and finds none iff no group has that name |
| Store.FindStudent | app/models/assignment.rb:269 | finds a student with that user name, and finds none iff no student has it |
| Text.StripSpec | app/models/assignment.rb:261 | the stripped text is a contiguous slice of the input, only whitespace is cut off either end, and it neither starts nor ends with whitespace |
| Text.StripIdempotent | app/models/assignment.rb:269 | stripping twice is stripping once |
| Text.ParseNatToString | app/models/assignment.rb:180 | the decimal text of an id reads back as that id |
| Formation.AutoGroupNameInjective | app/models/assignment.rb:180 | generated names `group_<id>` differ for different ids |
| Formation.AddGroup | app/models/assignment.rb:176-200 | with generated names a group `group_<id>` is created; with no name nothing happens; a name whose first group already has a grouping of the assignment raises and saves nothing; otherwise the first group of that name is reused, or exactly one is created; on success exactly one grouping is saved, linking the assignment to that very group (the generated, reused or created one) with `admin_approved` false; the group counter moves only when a group is created, and no membership is saved |
| Formation.AddGroupListsGrouping | app/models/assignment.rb:195-199 | a successful call appends the new grouping to the end of the assignment's grouping list and leaves other assignments' lists unchanged |
| Formation.AddGroupTwiceFails | app/models/assignment.rb:184-188 | adding the same name a second time raises "already exists" and saves nothing |
| Formation.AddGroupWf | app/models/assignment.rb:176-200 | `add_group` keeps the snapshot consistent |
| Formation.CloneGroupingsFrom | app/models/assignment.rb:214-220 | the five group settings are copied from the original onto `self`, and nothing else of `self` changes |
| Formation.CloneGroupingsFromKeeps | app/models/assignment.rb:221-237 | cloning keeps the snapshot consistent, and every grouping saved before keeps its row, memberships and seats |
| Formation.CloneGroupingsFromCopy | app/models/assignment.rb:221-236 | the j-th grouping of the original becomes a new grouping of `self` for the same group, with the same user, type and status on each membership, in order |
| Formation.CloneGroupingsFromListed | app/models/assignment.rb:221-226 | `self`'s groupings gain one new grouping per original grouping, in order; other assignments' lists are unchanged |
| Formation.ResolvedPrefix | app/models/assignment.rb:268-273 | the count of leading member names that name a student after stripping; the next name, if any, names none |
| Formation.CsvGroup | app/models/assignment.rb:246-252 | the row's group is the first group of that name, or else a single new group of that name |
| Formation.AddCsvGroup | app/models/assignment.rb:242-284 | an empty row answers `nil` and saves nothing; a list of unknown names holds exactly one name |
| Formation.AddCsvGroupOutcome | app/models/assignment.rb:243-283 | the answer is the raise for a one-field row whose repository is not system-managed; otherwise the first member name that names no student, or `true` if every name does |
| Formation.AddCsvGroupGroup | app/models/assignment.rb:246-263 | the row's group is reused or created; its repository name becomes the stripped second field unless the repository is system-managed; no other group changes; the group id counter moves by one exactly when the group is created |
| Formation.AddCsvGroupGrouping | app/models/assignment.rb:268-282 | once the first member resolves, exactly one grouping is saved; it receives the resolved members in order, the first as inviter and the rest with the default status |
| Formation.AddCsvGroupMemberships | app/models/assignment.rb:268-282 | once the first member resolves, every membership saved before is kept unchanged and exactly one membership is added per resolved member |
| Formation.AddCsvGroupNoGrouping | app/models/assignment.rb:255-281 | when the first member does not resolve, or the row raises, no grouping and no membership is saved |
| Formation.ImportMembersAppends | app/models/assignment.rb:268-283 | the member loop saves one membership per resolving name, up to the first name that does not resolve, and reports that name |
| Formation.AddCsvGroupWf | app/models/assignment.rb:242-284 | `add_csv_group` keeps the snapshot consistent |
| Queries.SortByLastName | app/models/assignment.rb:105 | the result is ordered by last name and is a permutation of the input |
| Queries.NoGroupingStudentsListSpec | app/models/assignment.rb:104-113 | ordered by last name; holds exactly the visible students without an accepted grouping, each as often as in the student table |
| Queries.CanInviteFor | app/models/assignment.rb:118 | answers nothing iff the grouping id does not exist (`find` raises) |
| Queries.CanInviteForSpec | app/models/assignment.rb:117-127 | ordered by last name; a sub-multiset of the no-grouping list; a student is listed iff they are on that list and not pending |
| Queries.GroupedStudentsSpec | app/models/assignment.rb:286-292 | a user is grouped iff one of the assignment's groupings has a student membership for them |
| Queries.GroupedUngroupedPartition | app/models/assignment.rb:294-296 | a student is ungrouped iff their id is not grouped; each ungrouped student is kept as often as in the table |
| Queries.ValidInvalidPartition | app/models/assignment.rb:298-311 | the valid and invalid lists are id-ordered and split the assignment's groupings: valid iff approved or holding at least `group_min` student memberships |
| Queries.StudentCountIsCardinality | app/models/assignment.rb:301 | the student count of a grouping is the number of its student membership rows |
| Queries.HasTaSpec | app/models/assignment.rb:314 | a grouping joins with a TA membership iff some TA membership points at it |
| Queries.AssignedUnassignedPartition | app/models/assignment.rb:313-320 | the assigned and unassigned lists are id-ordered, each grouping appears at most once, and they split the assignment's groupings by whether a TA is a member |
| Results.TotalMark | app/models/assignment.rb:135-141 | the loop's total is four times the sum of the rubric weights, that is four times `total_criteria_weight` |
| Results.FloorDiv | app/models/assignment.rb:166-168 | Ruby's integer quotient is the floor quotient, for either sign of the divisor |
| Results.ReleasedMarksSpec | app/models/assignment.rb:148-157 | the j-th mark is the total mark of the j-th grouping whose used submission has a released result, so the marks, their count and their sum are fixed by those groupings; a mark occurs iff such a grouping carries it |
| Results.SetResultsAverage | app/models/assignment.rb:144-170 | answers `false` iff no result is released; raises iff the released marks have a nonzero sum and the total mark is zero; otherwise stores an average and changes nothing else |
| Results.SetResultsAveragePercent | app/models/assignment.rb:162-168 | a zero sum stores 0; otherwise the stored value is the floor of the floor-mean times 100 divided by the total mark |
| Results.SetResultsAverageBounds | app/models/assignment.rb:166-168 | when every released mark lies between 0 and the total mark, the stored average lies between 0 and 100 |
| Reports.SvnCommandsSpec | app/models/assignment.rb:323-337 | one export line per grouping with a used submission, in grouping order, giving its revision, repository URL and group name |
| Reports.SvnCommandRoundTrip | app/models/assignment.rb:330 | an export line reads back into its revision, URL and group name when the URL holds no space |
| Reports.ReplaceSubmissionRule | app/models/assignment.rb:339-348 | the new rule is set, nothing else of the assignment changes, and the rule it had (if any) is the one destroyed |
| Reports.ReplaceSubmissionRuleTwice | app/models/assignment.rb:339-348 | replacing twice equals replacing once with the later rule, and the second replacement destroys the first new rule |

## Left out

- Saving: every `save` is taken to succeed. Validation failures on save are not modelled, and neither is `save(false)`.
- `Assignment.find` and `Grouping.find` raising on an unknown id: `clone_groupings_from` takes the original assignment as a value. `can_invite_for` answers `None` for an unknown grouping id.
- `validate`'s due-date checks (lines 34-41): they parse times and read the clock, so they are left out. The presence, uniqueness and associated-record validations are left out too.
- `past_collection_date?`, `submission_by`, `group_by` and `create_groupings_when_students_work_alone` are not part of this model. Each calls into another model: submission rules, users or students.
- `total_criteria_weight` (lines 172-174) is an SQL sum over the rubric criteria. It is modelled as `Results.TotalCriteriaWeight`, the sum of the weights, with no database round trip.
- Dates are integers. Time-zone parsing is not modelled.
- Marks are integers. Rubric weights stored as floats would make Ruby's arithmetic floating point, and that is not modelled.
- Text.Strip: Ruby's `strip` also removes trailing NUL characters. The model treats only space and `\t` to `\r` as whitespace.
- Queries.SortByLastName: the database's collation and its order among equal last names are not modelled. Last names are compared character by character, and equal names keep no particular order.
- `Grouping#add_member` is a plain insertion of a membership with the given or default status. Its own checks and callbacks are not part of this model.
- `Group.find(:first, …)` and `Student.find_by_user_name` are taken to return the row with the smallest id, and the first student in table order.
- Store.FirstGroupNamed and Store.FindStudent compare names exactly, character by character (lines 184, 246 and 269). The database's collation is not modelled, and neither is case folding. Under a case-insensitive collation, `add_group("Group1")` would reuse a group named `group1`; in the model it does not.
- Formation.AddCsvGroup: every CSV field is a string. Ruby's CSV parser gives `nil` for an empty unquoted cell. A `nil` repository field would raise `NoMethodError` at line 261, and a `nil` member field would raise it at line 269. Both raises happen after the group and any earlier members were saved, and neither is modelled. The nearest model input, an empty string, stores an empty repository name or answers with the unknown name `""`.
- `group_min` and `group_max` are never nil: the guard `(group_max && group_min)` is always true in the model.
- Formation.CloneGroupingsFrom: reads all seats of the original groupings before saving anything. This is equivalent to Ruby's order, because cloning never changes an existing grouping's memberships (Formation.CloneGroupingsFromKeeps). Ruby never saves `self` there, so the model returns it in memory and leaves it out of the snapshot.
- `group[1].strip` on a one-field row raises `NoMethodError`. It is modelled as the outcome `CsvNoRepoField`, with the group already saved.
- Ruby's `ZeroDivisionError` in `set_results_average` is the outcome `DivideByZero`.
- Row order: `Grouping.find_all_by_assignment_id` (lines 145 and 325), `original_assignment.groupings` (line 221), `g.memberships` (line 228) and the SQL joins (`:include`, `:joins`, `uniq`, lines 300 and 314) have no `:order`, so the database decides their order. The model assumes ascending id order. The order claims of Reports.SvnCommandsSpec, Formation.CloneGroupingsFromCopy, Formation.CloneGroupingsFromListed, Queries.ValidInvalidPartition and Queries.AssignedUnassignedPartition hold only under that assumption.

=== FILE: entities.dfy ===
/**
 The records behind an assignment: groups, groupings, memberships and students,
 held as an immutable snapshot of the database. Every table is a map from a
 row id to a row, together with the next id the table will hand out.
 */
module Entities {

  datatype Option<+T> = None | Some(value: T)

  /** The single-table-inheritance `type` column of a membership. */
  datatype MemberKind = StudentMembership | TaMembership

  /** The `membership_status` column; a TA membership carries no status. */
  datatype Status = Inviter | Pending | Accepted | Rejected | NoStatus

  /** A group: its unique name, the repository name (nil until set) and
      whether the repository is managed by the system. */
  datatype Group = Group(name: string, repoName: Option<string>, repositoryAdmin: bool)

  /** The binding of one group to one assignment. */
  datatype Grouping = Grouping(assignmentId: nat, groupId: nat, adminApproved: bool)

  datatype Membership = Membership(userId: nat, groupingId: nat, kind: MemberKind, status: Status)

  datatype Student = Student(id: nat, userName: string, lastName: string, hidden: bool)

  /** The submission rule is owned by its assignment; its variants are not
      part of this model, so it is an identified record. */
  datatype SubmissionRule = SubmissionRule(ruleId: nat, ruleType: string)

  datatype MarkResult = MarkResult(totalMark: int, releasedToStudents: bool)

  /** The submission a grouping is graded on, with its result if one exists. */
  datatype Submission = Submission(revisionNumber: nat, result: Option<MarkResult>)

  datatype Assignment = Assignment(
    id: nat,
    groupMin: int,
    groupMax: int,
    instructorFormGroups: bool,
    studentFormGroups: bool,
    groupNameAutogenerated: bool,
    groupNameDisplayed: bool,
    dueDate: int,
    resultsAverage: Option<int>,
    submissionRule: Option<SubmissionRule>,
    rubricWeights: seq<int>)

  datatype State = State(
    groups: map<nat, Group>,
    nextGroup: nat,
    groupings: map<nat, Grouping>,
    nextGrouping: nat,
    memberships: map<nat, Membership>,
    nextMembership: nat,
    students: seq<Student>)

  /** The database invariant every operation keeps: ids are below the next id
      of their table, a grouping names an existing group and a membership an
      existing grouping. */
  predicate Wf(s: State) {
    && (forall k :: k in s.groups ==> k < s.nextGroup)
    && (forall k :: k in s.groupings ==> k < s.nextGrouping && s.groupings[k].groupId in s.groups)
    && (forall k :: k in s.memberships ==> k < s.nextMembership && s.memberships[k].groupingId in s.groupings)
  }

  /** What cloning copies from a membership: user, type and status. */
  type Seat = (nat, MemberKind, Status)

  function SeatOf(m: Membership): Seat {
    (m.userId, m.kind, m.status)
  }

  function AssignmentOf(g: Grouping): nat {
    g.assignmentId
  }

  function GroupingOf(m: Membership): nat {
    m.groupingId
  }

  function NameOf(g: Group): string {
    g.name
  }
}

=== FILE: formation.dfy ===
/**
 Group formation: `add_group`, `clone_groupings_from` and the CSV import
 `add_csv_group`. Each takes the database snapshot and returns the snapshot
 after the rows it saves, together with what the Ruby method returns.
 */
module Formation {
  import opened Entities
  import opened Store
  import opened Text

  /** What `add_group` returns or raises. */
  datatype AddGroupOutcome =
    | GroupingAdded(groupingId: nat)    // the saved grouping
    | NoGroupName                       // `nil`: no name was given
    | GroupAlreadyLinked(name: string)  // the raised "Group ... already exists"

  /** The name given to a group whose name is generated from its id. */
  function AutoGroupName(groupId: nat): string {
    "group_" + NatToString(groupId)
  }

  /** Generated names tell groups apart: two ids never share a name. */
  lemma AutoGroupNameInjective(m: nat, n: nat)
    requires m != n
    ensures AutoGroupName(m) != AutoGroupName(n)
  {
    NatToStringInjective(m, n);
    assert AutoGroupName(m)[6..] == NatToString(m);
    assert AutoGroupName(n)[6..] == NatToString(n);
  }

  /** Some grouping of the assignment already points at the group. */
  predicate LinkedTo(s: State, assignmentId: nat, groupId: nat) {
    exists k :: k in s.groupings && s.groupings[k].assignmentId == assignmentId && s.groupings[k].groupId == groupId
  }

  /** Saves a grouping of the assignment for an existing group. */
  function Link(s: State, assignmentId: nat, groupId: nat): (State, AddGroupOutcome) {
    (NewGrouping(s, Grouping(assignmentId, groupId, false)), GroupingAdded(s.nextGrouping))
  }

  /** `add_group(new_group_name)`. */
  function AddGroup(s: State, a: Assignment, newName: Option<string>): (out: (State, AddGroupOutcome))
    requires Wf(s)
    ensures out.0.students == s.students && out.0.memberships == s.memberships
    ensures out.0.nextMembership == s.nextMembership
    // autogenerated names: never fails, the new group is named after its id,
    // and the new grouping links the assignment to that group
    ensures a.groupNameAutogenerated ==>
      && out.1 == GroupingAdded(s.nextGrouping)
      && out.0.groups == s.groups[s.nextGroup := Group(AutoGroupName(s.nextGroup), None, false)]
      && out.0.nextGroup == s.nextGroup + 1
      && out.0.groupings == s.groupings[s.nextGrouping := Grouping(a.id, s.nextGroup, false)]
    // no name: nothing happens
    ensures !a.groupNameAutogenerated && newName.None? ==> out == (s, NoGroupName)
    // a group of that name that already has a grouping of this assignment: raised, nothing saved
    ensures out.1.GroupAlreadyLinked? <==>
      && !a.groupNameAutogenerated && newName.Some?
      && FirstGroupNamed(s, newName.value).Some?
      && LinkedTo(s, a.id, FirstGroupNamed(s, newName.value).value)
    ensures out.1.GroupAlreadyLinked? ==> out.0 == s
    // a group of that name is reused; otherwise exactly one group is created
    ensures !a.groupNameAutogenerated && newName.Some? && FirstGroupNamed(s, newName.value).Some? ==>
      && out.0.groups == s.groups && out.0.nextGroup == s.nextGroup
      && (!LinkedTo(s, a.id, FirstGroupNamed(s, newName.value).value) ==>
            && out.1 == GroupingAdded(s.nextGrouping)
            && out.0.groupings == s.groupings[s.nextGrouping := Grouping(a.id, FirstGroupNamed(s, newName.value).value, false)])
    ensures !a.groupNameAutogenerated && newName.Some? && FirstGroupNamed(s, newName.value).None? ==>
      && out.1 == GroupingAdded(s.nextGrouping)
      && out.0.groups == s.groups[s.nextGroup := Group(newName.value, None, false)]
      && out.0.nextGroup == s.nextGroup + 1
      && out.0.groupings == s.groupings[s.nextGrouping := Grouping(a.id, s.nextGroup, false)]
    // on success exactly one grouping is saved, linking the assignment to the named group
    ensures out.1.GroupingAdded? ==>
      && out.1.groupingId == s.nextGrouping
      && s.nextGrouping !in s.groupings
      && out.0.nextGrouping == s.nextGrouping + 1
      && s.nextGrouping in out.0.groupings
      && out.0.groupings == s.groupings[s.nextGrouping := out.0.groupings[s.nextGrouping]]
      && out.0.groupings[s.nextGrouping].assignmentId == a.id
      && out.0.groupings[s.nextGrouping].groupId in out.0.groups
      && out.0.groups[out.0.groupings[s.nextGrouping].groupId].name
           == (if a.groupNameAutogenerated then AutoGroupName(s.nextGroup) else newName.value)
  {
    if a.groupNameAutogenerated then
      var s1 := NewGroup(s, Group(AutoGroupName(s.nextGroup), None, false));
      Link(s1, a.id, s.nextGroup)
    else if newName.None? then
      (s, NoGroupName)
    else
      var name := newName.value;
      match FirstGroupNamed(s, name)
      case Some(gid) =>
        if LinkedTo(s, a.id, gid) then (s, GroupAlreadyLinked(name)) else Link(s, a.id, gid)
      case None =>
        var s1 := NewGroup(s, Group(name, None, false));
        Link(s1, a.id, s.nextGroup)
  }

  /** A successful `add_group` lists the new grouping last among the
      assignment's groupings, and no other assignment's list changes. */
  lemma AddGroupListsGrouping(s: State, a: Assignment, newName: Option<string>, b: nat)
    requires Wf(s) && AddGroup(s, a, newName).1.GroupingAdded?
    ensures GroupingsOf(AddGroup(s, a, newName).0, a.id) == GroupingsOf(s, a.id) + [s.nextGrouping]
    ensures b != a.id ==> GroupingsOf(AddGroup(s, a, newName).0, b) == GroupingsOf(s, b)
  {
    var out := AddGroup(s, a, newName);
    var gid := out.0.groupings[s.nextGrouping].groupId;
    var s1 := if out.0.groups == s.groups then s else NewGroup(s, out.0.groups[s.nextGroup]);
    assert out.0 == NewGrouping(s1, Grouping(a.id, gid, false));
    NewGroupingListed(s1, Grouping(a.id, gid, false));
    if b != a.id {
      NewGroupingOthers(s1, Grouping(a.id, gid, false), b);
    }
  }

  /** Adding the same name twice to an assignment without generated names
      fails the second time, with nothing saved. */
  lemma AddGroupTwiceFails(s: State, a: Assignment, name: string)
    requires Wf(s) && !a.groupNameAutogenerated
    requires AddGroup(s, a, Some(name)).1.GroupingAdded?
    ensures var s1 := AddGroup(s, a, Some(name)).0;
      AddGroup(s1, a, Some(name)) == (s1, GroupAlreadyLinked(name))
  {
    var s1 := AddGroup(s, a, Some(name)).0;
    var n := s.nextGrouping;
    var gid := s1.groupings[n].groupId;
    assert FirstGroupNamed(s1, name) == Some(gid);
    assert LinkedTo(s1, a.id, gid);
  }

  /** `add_group` keeps the database consistent. */
  lemma AddGroupWf(s: State, a: Assignment, newName: Option<string>)
    requires Wf(s)
    ensures Wf(AddGroup(s, a, newName).0)
  {
    if a.groupNameAutogenerated {
      NewGroupWf(s, Group(AutoGroupName(s.nextGroup), None, false));
    } else if newName.Some? && FirstGroupNamed(s, newName.value).None? {
      NewGroupWf(s, Group(newName.value, None, false));
    }
  }

  /** Copies one source grouping onto the target assignment: a new grouping
      for the group `g` belongs to, then one membership per seat, with the
      same user, type and status, in order. */
  function CloneOne(s: State, target: nat, g: nat, seats: seq<Seat>): (r: State)
    requires g in s.groupings
    ensures r.groups == s.groups && r.nextGroup == s.nextGroup && r.students == s.students
    ensures r.nextGrouping == s.nextGrouping + 1
    ensures r.groupings == s.groupings[s.nextGrouping := Grouping(target, s.groupings[g].groupId, false)]
  {
    AppendMemberships(NewGrouping(s, Grouping(target, s.groupings[g].groupId, false)), s.nextGrouping, seats)
  }

  /** Copies the source groupings one after another, in order; `seats[j]`
      are the seats of `src[j]`. */
  function CloneEach(s: State, target: nat, src: seq<nat>, seats: seq<seq<Seat>>): (r: State)
    requires |seats| == |src|
    requires forall i :: 0 <= i < |src| ==> src[i] in s.groupings
    ensures r.groups == s.groups && r.nextGroup == s.nextGroup && r.students == s.students
    ensures r.nextGrouping == s.nextGrouping + |src|
    decreases |src|
  {
    if src == [] then s
    else CloneEach(CloneOne(s, target, src[0], seats[0]), target, src[1..], seats[1..])
  }

  /** Cloning one grouping keeps the database consistent and changes no
      saved membership. */
  lemma CloneOneWf(s: State, target: nat, g: nat, seats: seq<Seat>)
    requires Wf(s) && g in s.groupings
    ensures var r := CloneOne(s, target, g, seats);
      && Wf(r)
      && (forall k :: k in s.memberships ==> k in r.memberships && r.memberships[k] == s.memberships[k])
  {
    var gr := Grouping(target, s.groupings[g].groupId, false);
    var s1 := NewGrouping(s, gr);
    NewGroupingWf(s, gr);
    AppendMembershipsWf(s1, s.nextGrouping, seats);
    AppendMembershipsRows(s1, s.nextGrouping, seats);
  }

  /** The new grouping gets exactly the given seats. */
  lemma CloneOneSeats(s: State, target: nat, g: nat, seats: seq<Seat>)
    requires Wf(s) && g in s.groupings
    ensures SeatsOf(CloneOne(s, target, g, seats), s.nextGrouping) == seats
  {
    var gr := Grouping(target, s.groupings[g].groupId, false);
    NewGroupingEmpty(s, gr);
    AppendMembershipsFresh(NewGrouping(s, gr), s.nextGrouping, seats);
  }

  /** A grouping already saved keeps its memberships and seats. */
  lemma CloneOneKeeps(s: State, target: nat, g: nat, seats: seq<Seat>, h: nat)
    requires Wf(s) && g in s.groupings && h in s.groupings
    ensures var r := CloneOne(s, target, g, seats);
      MembersOf(r, h) == MembersOf(s, h) && SeatsOf(r, h) == SeatsOf(s, h)
  {
    var gr := Grouping(target, s.groupings[g].groupId, false);
    var s1 := NewGrouping(s, gr);
    CloneOneWf(s, target, g, seats);
    AppendMembershipsOthers(s1, s.nextGrouping, seats);
    assert MembersOf(s1, h) == MembersOf(s, h);
    SeatsOfFrame(s, CloneOne(s, target, g, seats), h);
  }

  /** Cloning keeps the database consistent and changes no saved membership. */
  lemma {:induction false} CloneEachWf(s: State, target: nat, src: seq<nat>, seats: seq<seq<Seat>>)
    requires Wf(s) && |seats| == |src|
    requires forall i :: 0 <= i < |src| ==> src[i] in s.groupings
    ensures var r := CloneEach(s, target, src, seats);
      && Wf(r)
      && (forall k :: k in s.memberships ==> k in r.memberships && r.memberships[k] == s.memberships[k])
    decreases |src|
  {
    if src != [] {
      CloneOneWf(s, target, src[0], seats[0]);
      CloneEachWf(CloneOne(s, target, src[0], seats[0]), target, src[1..], seats[1..]);
    }
  }

  /** A grouping saved before cloning keeps its memberships and seats. */
  lemma {:induction false} CloneEachKeeps(s: State, target: nat, src: seq<nat>, seats: seq<seq<Seat>>, h: nat)
    requires Wf(s) && |seats| == |src| && h in s.groupings
    requires forall i :: 0 <= i < |src| ==> src[i] in s.groupings
    ensures var r := CloneEach(s, target, src, seats);
      MembersOf(r, h) == MembersOf(s, h) && SeatsOf(r, h) == SeatsOf(s, h)
    decreases |src|
  {
    if src != [] {
      CloneOneWf(s, target, src[0], seats[0]);
      CloneOneKeeps(s, target, src[0], seats[0], h);
      CloneEachKeeps(CloneOne(s, target, src[0], seats[0]), target, src[1..], seats[1..], h);
    }
  }

  /** The first new grouping gets the first seat list. */
  lemma CloneEachSeatsFirst(s: State, target: nat, src: seq<nat>, seats: seq<seq<Seat>>)
    requires Wf(s) && |seats| == |src| && src != []
    requires forall i :: 0 <= i < |src| ==> src[i] in s.groupings
    ensures SeatsOf(CloneEach(s, target, src, seats), s.nextGrouping) == seats[0]
  {
    var s1 := CloneOne(s, target, src[0], seats[0]);
    CloneOneWf(s, target, src[0], seats[0]);
    CloneOneSeats(s, target, src[0], seats[0]);
    CloneEachKeeps(s1, target, src[1..], seats[1..], s.nextGrouping);
  }

  /** The `j`-th new grouping gets the `j`-th seat list. */
  lemma {:induction false} CloneEachSeats(s: State, target: nat, src: seq<nat>, seats: seq<seq<Seat>>, j: nat)
    requires Wf(s) && |seats| == |src| && j < |src|
    requires forall i :: 0 <= i < |src| ==> src[i] in s.groupings
    ensures SeatsOf(CloneEach(s, target, src, seats), s.nextGrouping + j) == seats[j]
    decreases |src|
  {
    if j == 0 {
      CloneEachSeatsFirst(s, target, src, seats);
    } else {
      CloneOneWf(s, target, src[0], seats[0]);
      CloneEachSeats(CloneOne(s, target, src[0], seats[0]), target, src[1..], seats[1..], j - 1);
      assert seats[1..][j - 1] == seats[j];
    }
  }

  /** The grouping table after cloning: one new row per source grouping,
      numbered from `n`, for the same group, on the target assignment. */
  function ClonedRows(gs: map<nat, Grouping>, n: nat, target: nat, src: seq<nat>): map<nat, Grouping>
    requires forall i :: 0 <= i < |src| ==> src[i] in gs
    decreases |src|
  {
    if src == [] then gs
    else ClonedRows(gs[n := Grouping(target, gs[src[0]].groupId, false)], n + 1, target, src[1..])
  }

  lemma {:induction false} CloneEachRows(s: State, target: nat, src: seq<nat>, seats: seq<seq<Seat>>)
    requires |seats| == |src|
    requires forall i :: 0 <= i < |src| ==> src[i] in s.groupings
    ensures CloneEach(s, target, src, seats).groupings == ClonedRows(s.groupings, s.nextGrouping, target, src)
    decreases |src|
  {
    if src != [] {
      CloneEachRows(CloneOne(s, target, src[0], seats[0]), target, src[1..], seats[1..]);
    }
  }

  /** Rows outside the new block keep their value; the block holds the copies. */
  lemma {:induction false} ClonedRowsAt(gs: map<nat, Grouping>, n: nat, target: nat, src: seq<nat>, k: nat)
    requires forall i :: 0 <= i < |src| ==> src[i] in gs && src[i] < n
    ensures var r := ClonedRows(gs, n, target, src);
      && (k in r <==> k in gs || n <= k < n + |src|)
      && (n <= k < n + |src| ==> r[k] == Grouping(target, gs[src[k - n]].groupId, false))
      && (k in gs && k < n ==> r[k] == gs[k])
    decreases |src|
  {
    if src != [] {
      var gs1 := gs[n := Grouping(target, gs[src[0]].groupId, false)];
      var tail := src[1..];
      assert forall i :: 0 <= i < |tail| ==> tail[i] == src[i + 1];
      ClonedRowsAt(gs1, n + 1, target, tail, k);
      if n < k < n + |src| {
        assert tail[k - (n + 1)] == src[k - n];
      }
    }
  }

  /** After cloning, the target's grouping list ends with the new groupings,
      and the list of every other assignment is as it was. */
  lemma CloneEachListed(s: State, target: nat, src: seq<nat>, seats: seq<seq<Seat>>, b: nat)
    requires Wf(s) && |seats| == |src|
    requires forall i :: 0 <= i < |src| ==> src[i] in s.groupings
    ensures var r := CloneEach(s, target, src, seats);
      && GroupingsOf(r, target) == GroupingsOf(s, target) + Range(s.nextGrouping, r.nextGrouping)
      && (b != target ==> GroupingsOf(r, b) == GroupingsOf(s, b))
  {
    var r := CloneEach(s, target, src, seats);
    var n, hi := s.nextGrouping, r.nextGrouping;
    CloneEachRows(s, target, src, seats);
    forall k | 0 <= k < hi
      ensures (k in r.groupings <==> k in s.groupings || n <= k)
      ensures k in s.groupings && k < n ==> r.groupings[k] == s.groupings[k]
      ensures n <= k ==> r.groupings[k].assignmentId == target
    {
      ClonedRowsAt(s.groupings, n, target, src, k);
    }
    KeysWhereAgree(s.groupings, r.groupings, AssignmentOf, target, n);
    KeysWhereBlock(r.groupings, AssignmentOf, target, n, hi);
    if b != target {
      KeysWhereAgree(s.groupings, r.groupings, AssignmentOf, b, n);
      KeysWhereSkip(r.groupings, AssignmentOf, b, n, hi);
    }
  }

  /** The seats of each source grouping, read before any copy is saved. */
  function SourceSeats(s: State, src: seq<nat>): (r: seq<seq<Seat>>)
    ensures |r| == |src|
    decreases |src|
  {
    if src == [] then [] else [SeatsOf(s, src[0])] + SourceSeats(s, src[1..])
  }

  lemma {:induction false} SourceSeatsAt(s: State, src: seq<nat>, j: nat)
    requires j < |src|
    ensures SourceSeats(s, src)[j] == SeatsOf(s, src[j])
    decreases |src|
  {
    if j > 0 {
      SourceSeatsAt(s, src[1..], j - 1);
    }
  }

  /** `clone_groupings_from(assignment_id)`, with `original` the assignment
      that id finds: the group settings are copied onto `self`, and every
      grouping of `original` is copied onto `self` with its memberships. The
      returned assignment is `self` in memory; the Ruby method does not save it. */
  function CloneGroupingsFrom(s: State, self: Assignment, original: Assignment): (out: (State, Assignment))
    requires Wf(s)
    ensures out.0.groups == s.groups && out.0.students == s.students
    ensures out.0.nextGrouping == s.nextGrouping + |GroupingsOf(s, original.id)|
    ensures out.1.groupMin == original.groupMin && out.1.groupMax == original.groupMax
    ensures out.1.studentFormGroups == original.studentFormGroups
    ensures out.1.groupNameAutogenerated == original.groupNameAutogenerated
    ensures out.1.groupNameDisplayed == original.groupNameDisplayed
    ensures out.1.(groupMin := self.groupMin, groupMax := self.groupMax,
                   studentFormGroups := self.studentFormGroups,
                   groupNameAutogenerated := self.groupNameAutogenerated,
                   groupNameDisplayed := self.groupNameDisplayed) == self
  {
    var src := GroupingsOf(s, original.id);
    var copied := self.(groupMin := original.groupMin, groupMax := original.groupMax,
                        studentFormGroups := original.studentFormGroups,
                        groupNameAutogenerated := original.groupNameAutogenerated,
                        groupNameDisplayed := original.groupNameDisplayed);
    (CloneEach(s, self.id, src, SourceSeats(s, src)), copied)
  }

  /** Cloning keeps the database consistent, and every grouping saved before
      (those of the original among them) keeps its row, memberships and seats. */
  lemma CloneGroupingsFromKeeps(s: State, self: Assignment, original: Assignment, h: nat)
    requires Wf(s) && h in s.groupings
    ensures var r := CloneGroupingsFrom(s, self, original).0;
      && Wf(r)
      && h in r.groupings && r.groupings[h] == s.groupings[h]
      && MembersOf(r, h) == MembersOf(s, h)
      && SeatsOf(r, h) == SeatsOf(s, h)
  {
    var src := GroupingsOf(s, original.id);
    var seats := SourceSeats(s, src);
    CloneEachWf(s, self.id, src, seats);
    CloneEachKeeps(s, self.id, src, seats, h);
    CloneEachRows(s, self.id, src, seats);
    ClonedRowsAt(s.groupings, s.nextGrouping, self.id, src, h);
  }

  /** The `j`-th grouping of the original becomes grouping `nextGrouping + j`
      of `self`: same group, not approved, same user, type and status for
      every membership, in order. */
  lemma CloneGroupingsFromCopy(s: State, self: Assignment, original: Assignment, j: nat)
    requires Wf(s) && j < |GroupingsOf(s, original.id)|
    ensures var src := GroupingsOf(s, original.id);
      var r := CloneGroupingsFrom(s, self, original).0;
      && s.nextGrouping + j in r.groupings
      && r.groupings[s.nextGrouping + j] == Grouping(self.id, s.groupings[src[j]].groupId, false)
      && SeatsOf(r, s.nextGrouping + j) == SeatsOf(s, src[j])
  {
    var src := GroupingsOf(s, original.id);
    var seats := SourceSeats(s, src);
    CloneEachSeats(s, self.id, src, seats, j);
    SourceSeatsAt(s, src, j);
    CloneEachRows(s, self.id, src, seats);
    ClonedRowsAt(s.groupings, s.nextGrouping, self.id, src, s.nextGrouping + j);
  }

  /** `self`'s grouping list gains one grouping per grouping of the original,
      in order; every other assignment's list is unchanged. */
  lemma CloneGroupingsFromListed(s: State, self: Assignment, original: Assignment, b: nat)
    requires Wf(s)
    ensures var r := CloneGroupingsFrom(s, self, original).0;
      && GroupingsOf(r, self.id) == GroupingsOf(s, self.id) + Range(s.nextGrouping, r.nextGrouping)
      && (b != self.id ==> GroupingsOf(r, b) == GroupingsOf(s, b))
  {
    var src := GroupingsOf(s, original.id);
    CloneEachListed(s, self.id, src, SourceSeats(s, src), b);
  }

  /** What `add_csv_group` returns or raises. */
  datatype CsvOutcome =
    | CsvNil                               // `nil`: the row is empty
    | CsvNoRepoField                       // raised: `group[1]` is nil for a one-field row
    | UsersNotFound(names: seq<string>)    // the list holding the first unknown user name
    | CsvTrue                              // `true`: every member was added

  /** The number of leading names, whitespace stripped, that are user names
      of students. */
  function ResolvedPrefix(students: seq<Student>, names: seq<string>): (k: nat)
    ensures k <= |names|
    ensures forall i :: 0 <= i < k ==> FindStudent(students, Strip(names[i])).Some?
    ensures k < |names| ==> FindStudent(students, Strip(names[k])).None?
    decreases |names|
  {
    if names == [] || FindStudent(students, Strip(names[0])).None? then 0
    else
      var tail := names[1..];
      var k := ResolvedPrefix(students, tail);
      assert k < |tail| ==> tail[k] == names[k + 1];
      1 + k
  }

  /** The student seats for names that all resolve, each with `status`. */
  function StudentSeats(students: seq<Student>, names: seq<string>, status: Status): (r: seq<Seat>)
    requires forall i :: 0 <= i < |names| ==> FindStudent(students, Strip(names[i])).Some?
    ensures |r| == |names|
    decreases |names|
  {
    if names == [] then []
    else [(FindStudent(students, Strip(names[0])).value.id, StudentMembership, status)]
         + StudentSeats(students, names[1..], status)
  }

  /** The group a CSV row names: the first group of that name, or a new one. */
  function CsvGroup(s: State, name: string): (out: (State, nat))
    requires Wf(s)
    ensures out.1 in out.0.groups && out.0.groups[out.1].name == name
    ensures FirstGroupNamed(s, name).Some? ==> out == (s, FirstGroupNamed(s, name).value)
    ensures FirstGroupNamed(s, name).None? ==>
      && out.1 == s.nextGroup && out.1 !in s.groups
      && out.0 == s.(groups := s.groups[out.1 := Group(name, None, false)], nextGroup := s.nextGroup + 1)
  {
    match FirstGroupNamed(s, name)
    case Some(gid) => (s, gid)
    case None =>
      NewGroupWf(s, Group(name, None, false));
      (NewGroup(s, Group(name, None, false)), s.nextGroup)
  }

  /** Finding or creating the row's group keeps the database consistent. */
  lemma CsvGroupWf(s: State, name: string)
    requires Wf(s)
    ensures Wf(CsvGroup(s, name).0)
  {
    if FirstGroupNamed(s, name).None? {
      NewGroupWf(s, Group(name, None, false));
    }
  }

  /** The member loop from the second member on: each name is stripped and
      looked up; the first unknown name ends the import, every known one is
      added to the grouping with the status `add_member` gives by default. */
  function ImportMembers(s: State, groupingId: nat, names: seq<string>, status: Status): (out: (State, CsvOutcome))
    ensures out.0.students == s.students
    ensures out.1 == CsvTrue || (out.1.UsersNotFound? && |out.1.names| == 1)
    decreases |names|
  {
    if names == [] then (s, CsvTrue)
    else
      match FindStudent(s.students, Strip(names[0]))
      case None => (s, UsersNotFound([Strip(names[0])]))
      case Some(st) =>
        ImportMembers(AddMembership(s, groupingId, (st.id, StudentMembership, status)), groupingId, names[1..], status)
  }

  /** Overwrites the repository name with the stripped second field, unless
      the repository is managed by the system. */
  function CsvRepoName(s: State, gid: nat, row: seq<string>): State
    requires gid in s.groups && (s.groups[gid].repositoryAdmin || |row| >= 2)
  {
    var g := s.groups[gid];
    if g.repositoryAdmin then s
    else s.(groups := s.groups[gid := g.(repoName := Some(Strip(row[1])))])
  }

  /** The member loop: the first member, once resolved, saves the grouping
      and joins it as inviter; the rest go through `ImportMembers`. */
  function CsvAddMembers(s: State, a: Assignment, gid: nat, names: seq<string>, status: Status): (out: (State, CsvOutcome))
    ensures out.0.students == s.students
    ensures out.1 == CsvTrue || (out.1.UsersNotFound? && |out.1.names| == 1)
  {
    if names == [] then (s, CsvTrue)
    else
      match FindStudent(s.students, Strip(names[0]))
      case None => (s, UsersNotFound([Strip(names[0])]))
      case Some(st) =>
        var s1 := NewGrouping(s, Grouping(a.id, gid, false));
        var s2 := AddMembership(s1, s.nextGrouping, (st.id, StudentMembership, Inviter));
        ImportMembers(s2, s.nextGrouping, names[1..], status)
  }

  /** `add_csv_group(group)`, the row being group name, repository name, then
      member user names; `status` is the status `add_member` gives a member
      when none is passed. */
  function AddCsvGroup(s: State, a: Assignment, row: seq<string>, status: Status): (out: (State, CsvOutcome))
    requires Wf(s)
    ensures row == [] ==> out == (s, CsvNil)
    ensures out.0.students == s.students
    ensures out.1.UsersNotFound? ==> |out.1.names| == 1
  {
    if row == [] then (s, CsvNil)
    else
      var (s1, gid) := CsvGroup(s, row[0]);
      if !s1.groups[gid].repositoryAdmin && |row| == 1 then (s1, CsvNoRepoField)
      else CsvAddMembers(CsvRepoName(s1, gid, row), a, gid, CsvMembers(row), status)
  }

  /** The member fields of a CSV row: everything after the repository name. */
  function CsvMembers(row: seq<string>): seq<string> {
    if |row| <= 2 then [] else row[2..]
  }

  /** The member loop saves the seats of the names that resolve, up to the
      first that does not, and reports that one. */
  lemma {:induction false} ImportMembersAppends(s: State, groupingId: nat, names: seq<string>, status: Status)
    ensures var k := ResolvedPrefix(s.students, names);
      var out := ImportMembers(s, groupingId, names, status);
      && out.0 == AppendMemberships(s, groupingId, StudentSeats(s.students, names[..k], status))
      && out.1 == (if k == |names| then CsvTrue else UsersNotFound([Strip(names[k])]))
    decreases |names|
  {
    if names != [] && FindStudent(s.students, Strip(names[0])).Some? {
      var st := FindStudent(s.students, Strip(names[0])).value;
      var seat := (st.id, StudentMembership, status);
      var s1 := AddMembership(s, groupingId, seat);
      var tail := names[1..];
      ImportMembersAppends(s1, groupingId, tail, status);
      var k := ResolvedPrefix(s.students, names);
      assert k == 1 + ResolvedPrefix(s.students, tail);
      StudentSeatsCons(s.students, names, k, status);
    }
  }

  /** The seats of the first `k` names: the first name's seat, then those of
      the next `k - 1`. */
  lemma StudentSeatsCons(students: seq<Student>, names: seq<string>, k: nat, status: Status)
    requires 1 <= k <= |names|
    requires forall i :: 0 <= i < k ==> FindStudent(students, Strip(names[i])).Some?
    ensures var seats := StudentSeats(students, names[..k], status);
      && seats[0] == (FindStudent(students, Strip(names[0])).value.id, StudentMembership, status)
      && seats[1..] == StudentSeats(students, names[1..][..k - 1], status)
  {
    assert names[..k][1..] == names[1..][..k - 1];
    assert names[..k][0] == names[0];
  }

  /** What `add_csv_group` answers: `nil` for an empty row, the raise for a
      one-field row whose group is not repository-managed, else the first
      member name that does not resolve, or `true`. */
  lemma AddCsvGroupOutcome(s: State, a: Assignment, row: seq<string>, status: Status)
    requires Wf(s) && row != []
    ensures var (s1, gid) := CsvGroup(s, row[0]);
      var names := CsvMembers(row);
      var k := ResolvedPrefix(s.students, names);
      AddCsvGroup(s, a, row, status).1 ==
        if !s1.groups[gid].repositoryAdmin && |row| == 1 then CsvNoRepoField
        else if k == |names| then CsvTrue
        else UsersNotFound([Strip(names[k])])
  {
    var (s1, gid) := CsvGroup(s, row[0]);
    if s1.groups[gid].repositoryAdmin || |row| >= 2 {
      CsvAddMembersOutcome(CsvRepoName(s1, gid, row), a, gid, CsvMembers(row), status);
    }
  }

  /** The member loop answers with the first member name that does not
      resolve, or `true`; when the first member does not resolve it saves
      nothing. */
  lemma CsvAddMembersOutcome(s: State, a: Assignment, gid: nat, names: seq<string>, status: Status)
    ensures var k := ResolvedPrefix(s.students, names);
      var out := CsvAddMembers(s, a, gid, names, status);
      && out.1 == (if k == |names| then CsvTrue else UsersNotFound([Strip(names[k])]))
      && (k == 0 ==> out.0 == s)
  {
    if ResolvedPrefix(s.students, names) > 0 {
      var st := FindStudent(s.students, Strip(names[0])).value;
      var s1 := NewGrouping(s, Grouping(a.id, gid, false));
      var s2 := AddMembership(s1, s.nextGrouping, (st.id, StudentMembership, Inviter));
      ImportMembersAppends(s2, s.nextGrouping, names[1..], status);
    }
  }

  /** When the first member resolves, exactly one grouping is saved, and it
      receives the seats of the resolved names, the first as inviter and the
      others with the default status. */
  lemma CsvAddMembersSaved(s: State, a: Assignment, gid: nat, names: seq<string>, status: Status)
    requires ResolvedPrefix(s.students, names) > 0
    ensures var k := ResolvedPrefix(s.students, names);
      CsvAddMembers(s, a, gid, names, status).0
        == AppendMemberships(NewGrouping(s, Grouping(a.id, gid, false)), s.nextGrouping,
                             StudentSeats(s.students, names[..1], Inviter)
                             + StudentSeats(s.students, names[1..k], status))
  {
    var k := ResolvedPrefix(s.students, names);
    var n := s.nextGrouping;
    var st := FindStudent(s.students, Strip(names[0])).value;
    var first := (st.id, StudentMembership, Inviter);
    var s1 := NewGrouping(s, Grouping(a.id, gid, false));
    var s2 := AddMembership(s1, n, first);
    var rest := StudentSeats(s.students, names[1..k], status);
    assert CsvAddMembers(s, a, gid, names, status).0 == ImportMembers(s2, n, names[1..], status).0;
    assert ImportMembers(s2, n, names[1..], status).0 == AppendMemberships(s2, n, rest) by {
      ImportMembersAppends(s2, n, names[1..], status);
      assert names[1..][..k - 1] == names[1..k];
    }
    var seats := StudentSeats(s.students, names[..1], Inviter) + rest;
    assert seats[0] == first && seats[1..] == rest;
  }

  /** Setting the repository name keeps the database consistent and touches
      only that group. */
  lemma CsvRepoNameWf(s: State, gid: nat, row: seq<string>)
    requires Wf(s) && gid in s.groups && (s.groups[gid].repositoryAdmin || |row| >= 2)
    ensures var r := CsvRepoName(s, gid, row);
      Wf(r) && r == s.(groups := r.groups) && r.groups.Keys == s.groups.Keys
  {
  }

  /** The group side of `add_csv_group`: the group named by the first field
      is the first group of that name, or a new group when there is none; its
      repository name becomes the stripped second field unless the repository
      is managed by the system; no other group changes, and the group id
      counter moves only when the group is created. */
  lemma AddCsvGroupGroup(s: State, a: Assignment, row: seq<string>, status: Status)
    requires Wf(s) && row != []
    ensures var out := AddCsvGroup(s, a, row, status);
      var gid := CsvGroup(s, row[0]).1;
      var before := CsvGroup(s, row[0]).0.groups[gid];
      && (FirstGroupNamed(s, row[0]).Some? ==> gid == FirstGroupNamed(s, row[0]).value && out.0.groups.Keys == s.groups.Keys)
      && (FirstGroupNamed(s, row[0]).None? ==>
            && gid !in s.groups && out.0.groups.Keys == s.groups.Keys + {gid}
            && before == Group(row[0], None, false))
      && gid in out.0.groups
      && out.0.groups[gid].name == row[0]
      && out.0.groups[gid].repositoryAdmin == before.repositoryAdmin
      && out.0.groups[gid].repoName == (if before.repositoryAdmin || |row| == 1 then before.repoName else Some(Strip(row[1])))
      && (forall k :: k in s.groups && k != gid ==> out.0.groups[k] == s.groups[k])
      && out.0.nextGroup == s.nextGroup + (if FirstGroupNamed(s, row[0]).None? then 1 else 0)
  {
    var (s1, gid) := CsvGroup(s, row[0]);
    if s1.groups[gid].repositoryAdmin || |row| >= 2 {
      var s2 := CsvRepoName(s1, gid, row);
      CsvGroupWf(s, row[0]);
      CsvRepoNameWf(s1, gid, row);
      CsvAddMembersGroups(s2, a, gid, CsvMembers(row), status);
    }
  }

  /** The member loop never changes a group, nor the group id counter. */
  lemma CsvAddMembersGroups(s: State, a: Assignment, gid: nat, names: seq<string>, status: Status)
    ensures var r := CsvAddMembers(s, a, gid, names, status).0;
      r.groups == s.groups && r.nextGroup == s.nextGroup
  {
    var k := ResolvedPrefix(s.students, names);
    CsvAddMembersOutcome(s, a, gid, names, status);
    if k > 0 {
      CsvAddMembersSaved(s, a, gid, names, status);
    }
  }

  /** When the first member resolves, the new grouping links the assignment
      to the group and holds the seats of the resolved members. */
  lemma CsvAddMembersGrouping(s: State, a: Assignment, gid: nat, names: seq<string>, status: Status)
    requires Wf(s) && ResolvedPrefix(s.students, names) > 0
    ensures var k := ResolvedPrefix(s.students, names);
      var r := CsvAddMembers(s, a, gid, names, status).0;
      && r.groupings == s.groupings[s.nextGrouping := Grouping(a.id, gid, false)]
      && r.nextGrouping == s.nextGrouping + 1
      && SeatsOf(r, s.nextGrouping) == StudentSeats(s.students, names[..1], Inviter)
                                        + StudentSeats(s.students, names[1..k], status)
  {
    var k := ResolvedPrefix(s.students, names);
    var gr := Grouping(a.id, gid, false);
    var seats := StudentSeats(s.students, names[..1], Inviter) + StudentSeats(s.students, names[1..k], status);
    CsvAddMembersSaved(s, a, gid, names, status);
    NewGroupingEmpty(s, gr);
    AppendMembershipsFresh(NewGrouping(s, gr), s.nextGrouping, seats);
  }

  /** When the first member resolves, the member loop adds one membership
      per resolved name and leaves every membership saved before as it was. */
  lemma CsvAddMembersFrame(s: State, a: Assignment, gid: nat, names: seq<string>, status: Status)
    requires Wf(s) && ResolvedPrefix(s.students, names) > 0
    ensures var r := CsvAddMembers(s, a, gid, names, status).0;
      && r.nextMembership == s.nextMembership + ResolvedPrefix(s.students, names)
      && (forall k :: k in s.memberships ==> k in r.memberships && r.memberships[k] == s.memberships[k])
  {
    var k := ResolvedPrefix(s.students, names);
    var s1 := NewGrouping(s, Grouping(a.id, gid, false));
    var seats := StudentSeats(s.students, names[..1], Inviter) + StudentSeats(s.students, names[1..k], status);
    CsvAddMembersSaved(s, a, gid, names, status);
    assert |seats| == k;
    AppendMembershipsRows(s1, s.nextGrouping, seats);
  }

  /** The grouping side of `add_csv_group`: when the row's first member
      resolves, exactly one grouping is saved, linking the assignment to the
      group, and it receives the seats of the resolved members in order, the
      first as inviter. */
  lemma AddCsvGroupGrouping(s: State, a: Assignment, row: seq<string>, status: Status)
    requires Wf(s) && row != []
    ensures var out := AddCsvGroup(s, a, row, status);
      var gid := CsvGroup(s, row[0]).1;
      var names := CsvMembers(row);
      var k := ResolvedPrefix(s.students, names);
      var n := s.nextGrouping;
      out.1 != CsvNoRepoField && k > 0 ==>
        && out.0.groupings == s.groupings[n := Grouping(a.id, gid, false)]
        && out.0.nextGrouping == n + 1
        && SeatsOf(out.0, n) == StudentSeats(s.students, names[..1], Inviter)
                                + StudentSeats(s.students, names[1..k], status)
  {
    var (s1, gid) := CsvGroup(s, row[0]);
    var names := CsvMembers(row);
    if (s1.groups[gid].repositoryAdmin || |row| >= 2) && ResolvedPrefix(s.students, names) > 0 {
      CsvGroupWf(s, row[0]);
      CsvRepoNameWf(s1, gid, row);
      CsvAddMembersGrouping(CsvRepoName(s1, gid, row), a, gid, names, status);
    }
  }

  /** The membership side of `add_csv_group`: once the row's first member
      resolves, every membership saved before is kept and one membership is
      added per resolved member. */
  lemma AddCsvGroupMemberships(s: State, a: Assignment, row: seq<string>, status: Status)
    requires Wf(s) && row != []
    ensures var out := AddCsvGroup(s, a, row, status);
      var k := ResolvedPrefix(s.students, CsvMembers(row));
      out.1 != CsvNoRepoField && k > 0 ==>
        && out.0.nextMembership == s.nextMembership + k
        && (forall m :: m in s.memberships ==> m in out.0.memberships && out.0.memberships[m] == s.memberships[m])
  {
    var (s1, gid) := CsvGroup(s, row[0]);
    var names := CsvMembers(row);
    if (s1.groups[gid].repositoryAdmin || |row| >= 2) && ResolvedPrefix(s.students, names) > 0 {
      CsvGroupWf(s, row[0]);
      CsvRepoNameWf(s1, gid, row);
      CsvAddMembersFrame(CsvRepoName(s1, gid, row), a, gid, names, status);
    }
  }

  /** When the import stops before its first member is added (a raise, no
      members, or an unknown first member), no grouping and no membership is
      saved. */
  lemma AddCsvGroupNoGrouping(s: State, a: Assignment, row: seq<string>, status: Status)
    requires Wf(s) && row != []
    ensures var out := AddCsvGroup(s, a, row, status);
      out.1 == CsvNoRepoField || ResolvedPrefix(s.students, CsvMembers(row)) == 0 ==>
        && out.0.groupings == s.groupings && out.0.nextGrouping == s.nextGrouping
        && out.0.memberships == s.memberships && out.0.nextMembership == s.nextMembership
  {
    var (s1, gid) := CsvGroup(s, row[0]);
    if s1.groups[gid].repositoryAdmin || |row| >= 2 {
      CsvAddMembersOutcome(CsvRepoName(s1, gid, row), a, gid, CsvMembers(row), status);
    }
  }

  /** `add_csv_group` keeps the database consistent. */
  lemma AddCsvGroupWf(s: State, a: Assignment, row: seq<string>, status: Status)
    requires Wf(s)
    ensures Wf(AddCsvGroup(s, a, row, status).0)
  {
    if row != [] {
      var (s1, gid) := CsvGroup(s, row[0]);
      CsvGroupWf(s, row[0]);
      if s1.groups[gid].repositoryAdmin || |row| >= 2 {
        CsvRepoNameWf(s1, gid, row);
        CsvAddMembersWf(CsvRepoName(s1, gid, row), a, gid, CsvMembers(row), status);
      }
    }
  }

  /** The member loop keeps the database consistent. */
  lemma CsvAddMembersWf(s: State, a: Assignment, gid: nat, names: seq<string>, status: Status)
    requires Wf(s) && gid in s.groups
    ensures Wf(CsvAddMembers(s, a, gid, names, status).0)
  {
    var k := ResolvedPrefix(s.students, names);
    CsvAddMembersOutcome(s, a, gid, names, status);
    if k > 0 {
      var gr := Grouping(a.id, gid, false);
      CsvAddMembersSaved(s, a, gid, names, status);
      NewGroupingWf(s, gr);
      AppendMembershipsWf(NewGrouping(s, gr), s.nextGrouping,
        StudentSeats(s.students, names[..1], Inviter) + StudentSeats(s.students, names[1..k], status));
    }
  }
}

=== FILE: group_size.dfy ===
/**
 The group-size policy of an assignment: the validation of `group_min` and
 `group_max`, the two ways of asking whether students work in groups, and
 the due-date test.
 */
module GroupSize {
  import opened Entities

  datatype ValidationError =
    | GroupMinNotPositive   // `group_min` must be an integer greater than 0
    | GroupMaxBelowMin      // `group_max` must not be below `group_min`

  /** The group-size errors validation records, in the order it checks them. */
  function Validate(a: Assignment): (errors: seq<ValidationError>)
    ensures GroupMinNotPositive in errors <==> a.groupMin <= 0
    ensures GroupMaxBelowMin in errors <==> a.groupMax < a.groupMin
    ensures errors == [] <==> 0 < a.groupMin <= a.groupMax
  {
    (if a.groupMin > 0 then [] else [GroupMinNotPositive]) +
    (if a.groupMax < a.groupMin then [GroupMaxBelowMin] else [])
  }

  /** `group_assignment?`, kept with its literal formula. */
  predicate GroupAssignment(a: Assignment) {
    a.instructorFormGroups || a.groupMin != 1 || a.groupMax > 1
  }

  /** `individual?` */
  predicate Individual(a: Assignment) {
    a.groupMin == 1 && a.groupMax == 1
  }

  /** For a valid assignment whose students form their own groups, the two
      predicates are exact opposites. */
  lemma GroupAssignmentIsNotIndividual(a: Assignment)
    requires Validate(a) == []
    requires !a.instructorFormGroups
    ensures GroupAssignment(a) <==> !Individual(a)
  {
  }

  /** When instructors form the groups, an assignment limited to one student
      per group counts as both a group and an individual assignment. */
  lemma InstructorFormedSingletonIsBoth(a: Assignment)
    requires a.instructorFormGroups && a.groupMin == 1 && a.groupMax == 1
    ensures Validate(a) == []
    ensures GroupAssignment(a) && Individual(a)
  {
  }

  /** `past_due_date?`, with the clock reading passed in as `now`. */
  predicate PastDueDate(a: Assignment, now: int) {
    now > a.dueDate
  }

  /** The due date itself is not past; once past, it stays past. */
  lemma PastDueDateIsStrictAndMonotone(a: Assignment, now: int, later: int)
    requires now <= later
    ensures !PastDueDate(a, a.dueDate)
    ensures PastDueDate(a, now) ==> PastDueDate(a, later)
  {
  }
}

=== FILE: lists.dfy ===
/**
 Filtering of row lists: Ruby's `select`/`reject` and array difference, with
 the facts about order and multiplicity the queries rely on.
 */
module Lists {
  import opened Store

  /** The elements of `xs` that satisfy `p`, in their order (Ruby's `select`
      and `reject`). */
  function Keep<T(!new)>(xs: seq<T>, p: T -> bool): (r: seq<T>)
    ensures |r| <= |xs|
    ensures forall x :: x in r <==> x in xs && p(x)
    decreases |xs|
  {
    if xs == [] then []
    else
      var rest := Keep(xs[1..], p);
      assert xs == [xs[0]] + xs[1..];
      if p(xs[0]) then [xs[0]] + rest else rest
  }

  /** Each kept element appears as often as in `xs`; the others vanish. */
  lemma {:induction false} KeepCount<T(!new)>(xs: seq<T>, p: T -> bool, x: T)
    ensures multiset(Keep(xs, p))[x] == if p(x) then multiset(xs)[x] else 0
    decreases |xs|
  {
    if xs != [] {
      KeepCount(xs[1..], p, x);
      assert xs == [xs[0]] + xs[1..];
    }
  }

  /** Ruby's array difference `xs - ys` on rows compared by id. */
  function Minus(xs: seq<nat>, ys: seq<nat>): (r: seq<nat>)
    ensures forall x :: x in r <==> x in xs && x !in ys
  {
    Keep(xs, NotAmong(ys))
  }

  function NotAmong(ys: seq<nat>): nat -> bool {
    x => x !in ys
  }

  lemma MinusIncreasing(xs: seq<nat>, ys: seq<nat>)
    requires Increasing(xs)
    ensures Increasing(Minus(xs, ys))
  {
    KeepIncreasing(xs, NotAmong(ys));
  }

  lemma IncreasingCons(a: nat, rest: seq<nat>)
    requires Increasing(rest)
    requires forall y :: y in rest ==> a < y
    ensures Increasing([a] + rest)
  {
    var r := [a] + rest;
    forall i, j | 0 <= i < j < |r| ensures r[i] < r[j] {
      assert r[j] == rest[j - 1] && rest[j - 1] in rest;
      if i > 0 {
        assert r[i] == rest[i - 1];
      }
    }
  }

  /** A subsequence of an increasing sequence is increasing. */
  lemma {:induction false} KeepIncreasing(xs: seq<nat>, p: nat -> bool)
    requires Increasing(xs)
    ensures Increasing(Keep(xs, p))
    decreases |xs|
  {
    if xs != [] {
      var tail := xs[1..];
      KeepIncreasing(tail, p);
      var rest := Keep(tail, p);
      if p(xs[0]) {
        forall y | y in rest ensures xs[0] < y {
          var k :| 0 <= k < |tail| && tail[k] == y;
          assert xs[k + 1] == y;
        }
        IncreasingCons(xs[0], rest);
      }
    }
  }

  /** The elements of an increasing sequence are as many as its length. */
  lemma {:induction false} IncreasingCard(xs: seq<nat>)
    requires Increasing(xs)
    ensures |Elems(xs)| == |xs|
    decreases |xs|
  {
    if xs != [] {
      var init, last := xs[..|xs| - 1], xs[|xs| - 1];
      assert Increasing(init);
      IncreasingCard(init);
      assert last !in init by {
        forall i | 0 <= i < |init| ensures init[i] != last {
          assert init[i] == xs[i];
        }
      }
      assert xs == init + [last];
      ElemsSnoc(init, last);
    }
  }

  /** The distinct elements of a sequence. */
  function Elems(xs: seq<nat>): set<nat> {
    set x | x in xs
  }

  lemma ElemsSnoc(init: seq<nat>, last: nat)
    ensures Elems(init + [last]) == Elems(init) + {last}
  {
  }
}

=== FILE: queries.dfy ===
/**
 The read-only queries of an assignment: the students still without a
 group, the students a group can invite, the grouped and ungrouped students,
 and the splits of the assignment's groupings into valid and invalid ones
 and into those with and without a TA.
 */
module Queries {
  import opened Entities
  import opened Store
  import opened Lists
  import opened Text

  // ----- Ordering students by last name -----

  predicate SortedByLastName(xs: seq<Student>) {
    forall i, j :: 0 <= i < j < |xs| ==> LexLe(xs[i].lastName, xs[j].lastName)
  }

  lemma SortedCons(a: Student, rest: seq<Student>)
    requires SortedByLastName(rest)
    requires forall y :: y in rest ==> LexLe(a.lastName, y.lastName)
    ensures SortedByLastName([a] + rest)
  {
    var r := [a] + rest;
    forall i, j | 0 <= i < j < |r| ensures LexLe(r[i].lastName, r[j].lastName) {
      assert r[j] == rest[j - 1];
      if i > 0 {
        assert r[i] == rest[i - 1];
      }
    }
  }

  /** The head of a sorted list comes no later than any other element. */
  lemma SortedHead(xs: seq<Student>, y: Student)
    requires SortedByLastName(xs) && xs != [] && y in xs
    ensures LexLe(xs[0].lastName, y.lastName)
  {
    var k :| 0 <= k < |xs| && xs[k] == y;
    if k == 0 {
      LexLeTotal(y.lastName, y.lastName);
    }
  }

  /** Inserts `x` before the first student whose last name it does not exceed. */
  function InsertByLastName(x: Student, xs: seq<Student>): (r: seq<Student>)
    requires SortedByLastName(xs)
    ensures SortedByLastName(r)
    ensures multiset(r) == multiset(xs) + multiset{x}
    decreases |xs|
  {
    if xs == [] then [x]
    else if LexLe(x.lastName, xs[0].lastName) then
      InsertFront(x, xs);
      [x] + xs
    else
      var rest := InsertByLastName(x, xs[1..]);
      InsertBehind(x, xs, rest);
      [xs[0]] + rest
  }

  lemma InsertFront(x: Student, xs: seq<Student>)
    requires SortedByLastName(xs) && xs != [] && LexLe(x.lastName, xs[0].lastName)
    ensures SortedByLastName([x] + xs)
  {
    forall y | y in xs ensures LexLe(x.lastName, y.lastName) {
      SortedHead(xs, y);
      LexLeTransitive(x.lastName, xs[0].lastName, y.lastName);
    }
    SortedCons(x, xs);
  }

  lemma InsertBehind(x: Student, xs: seq<Student>, rest: seq<Student>)
    requires SortedByLastName(xs) && xs != [] && !LexLe(x.lastName, xs[0].lastName)
    requires SortedByLastName(rest) && multiset(rest) == multiset(xs[1..]) + multiset{x}
    ensures SortedByLastName([xs[0]] + rest)
    ensures multiset([xs[0]] + rest) == multiset(xs) + multiset{x}
  {
    assert xs == [xs[0]] + xs[1..];
    forall y | y in rest ensures LexLe(xs[0].lastName, y.lastName) {
      assert y in multiset(rest);
      if y == x {
        LexLeTotal(x.lastName, xs[0].lastName);
      } else {
        SortedHead(xs, y);
      }
    }
    SortedCons(xs[0], rest);
  }

  /** The students ordered by last name, as `:order => :last_name` returns
      them. */
  function SortByLastName(xs: seq<Student>): (r: seq<Student>)
    ensures SortedByLastName(r)
    ensures multiset(r) == multiset(xs)
    decreases |xs|
  {
    if xs == [] then []
    else
      assert xs == [xs[0]] + xs[1..];
      InsertByLastName(xs[0], SortByLastName(xs[1..]))
  }

  /** Keeping some students of a sorted list leaves it sorted. */
  lemma {:induction false} KeepSorted(xs: seq<Student>, p: Student -> bool)
    requires SortedByLastName(xs)
    ensures SortedByLastName(Keep(xs, p))
    decreases |xs|
  {
    if xs != [] {
      var tail := xs[1..];
      assert SortedByLastName(tail);
      KeepSorted(tail, p);
      var rest := Keep(tail, p);
      if p(xs[0]) {
        forall y | y in rest ensures LexLe(xs[0].lastName, y.lastName) {
          SortedHead(xs, y);
        }
        SortedCons(xs[0], rest);
      }
    }
  }

  // ----- Students without a group, and those a group may invite -----

  /** `no_grouping_students_list`: the students that are not hidden and have
      no accepted grouping for this assignment, by last name;
      `hasAccepted(st)` is `st.has_accepted_grouping_for?(self.id)`. */
  function NoGroupingStudentsList(students: seq<Student>, hasAccepted: Student -> bool): seq<Student> {
    Keep(SortByLastName(Keep(students, Visible)), Not(hasAccepted))
  }

  predicate Visible(st: Student) {
    !st.hidden
  }

  function Not(p: Student -> bool): Student -> bool {
    st => !p(st)
  }

  /** The list is ordered by last name and holds exactly the visible students
      without an accepted grouping, each as often as in the student table. */
  lemma NoGroupingStudentsListSpec(students: seq<Student>, hasAccepted: Student -> bool)
    ensures var r := NoGroupingStudentsList(students, hasAccepted);
      && SortedByLastName(r)
      && (forall st :: multiset(r)[st] == if !st.hidden && !hasAccepted(st) then multiset(students)[st] else 0)
      && (forall st :: st in r <==> st in students && !st.hidden && !hasAccepted(st))
  {
    var sorted := SortByLastName(Keep(students, Visible));
    KeepSorted(sorted, Not(hasAccepted));
    forall st ensures multiset(NoGroupingStudentsList(students, hasAccepted))[st]
                      == if !st.hidden && !hasAccepted(st) then multiset(students)[st] else 0 {
      KeepCount(sorted, Not(hasAccepted), st);
      KeepCount(students, Visible, st);
    }
  }

  /** `can_invite_for(gid)`: `None` when no grouping has that id (the raised
      `RecordNotFound`); otherwise the students without a group that are not
      pending in it; `pending(st)` is `grouping.pending?(st)`. */
  function CanInviteFor(s: State, gid: nat, hasAccepted: Student -> bool, pending: Student -> bool): (r: Option<seq<Student>>)
    ensures r.Some? <==> gid in s.groupings
  {
    if gid !in s.groupings then None
    else Some(Keep(NoGroupingStudentsList(s.students, hasAccepted), Not(pending)))
  }

  /** The invitable students are a sub-list of the students without a group:
      ordered by last name, none pending, and every student without a group
      who is not pending among them. */
  lemma CanInviteForSpec(s: State, gid: nat, hasAccepted: Student -> bool, pending: Student -> bool)
    requires gid in s.groupings
    ensures var all := NoGroupingStudentsList(s.students, hasAccepted);
      var r := CanInviteFor(s, gid, hasAccepted, pending).value;
      && SortedByLastName(r)
      && multiset(r) <= multiset(all)
      && (forall st :: st in r <==> st in all && !pending(st))
      && (forall st :: st in r ==> st in s.students && !st.hidden && !hasAccepted(st) && !pending(st))
  {
    var all := NoGroupingStudentsList(s.students, hasAccepted);
    NoGroupingStudentsListSpec(s.students, hasAccepted);
    KeepSorted(all, Not(pending));
    forall st ensures multiset(CanInviteFor(s, gid, hasAccepted, pending).value)[st] <= multiset(all)[st] {
      KeepCount(all, Not(pending), st);
    }
  }

  // ----- Grouped and ungrouped students -----

  /** A student membership in a grouping of the assignment. */
  predicate StudentOf(gs: map<nat, Grouping>, assignmentId: nat, m: Membership) {
    m.kind == StudentMembership && m.groupingId in gs && gs[m.groupingId].assignmentId == assignmentId
  }

  /** `student_memberships` of the assignment, through its groupings, in id order. */
  function StudentMemberships(s: State, assignmentId: nat): seq<nat> {
    KeysWhere(s.memberships, m => StudentOf(s.groupings, assignmentId, m), true, s.nextMembership)
  }

  function UserIds(m: map<nat, Membership>, ids: seq<nat>): (r: seq<nat>)
    requires forall i :: 0 <= i < |ids| ==> ids[i] in m
    ensures |r| == |ids|
    ensures forall i :: 0 <= i < |ids| ==> r[i] == m[ids[i]].userId
  {
    seq(|ids|, i requires 0 <= i < |ids| => m[ids[i]].userId)
  }

  /** `grouped_students`: the user of every student membership of the
      assignment, once per membership, whatever its status. */
  function GroupedStudents(s: State, assignmentId: nat): seq<nat> {
    UserIds(s.memberships, StudentMemberships(s, assignmentId))
  }

  /** `ungrouped_students`: `Student.all - grouped_students`. */
  function UngroupedStudents(s: State, assignmentId: nat): seq<Student> {
    var grouped := GroupedStudents(s, assignmentId);
    Keep(s.students, NotIn(grouped))
  }

  function NotIn(ids: seq<nat>): Student -> bool {
    (st: Student) => st.id !in ids
  }

  /** A user is grouped exactly when some student membership of one of the
      assignment's groupings belongs to them. */
  lemma GroupedStudentsSpec(s: State, assignmentId: nat, user: nat)
    requires Wf(s)
    ensures user in GroupedStudents(s, assignmentId) <==>
      exists k :: k in s.memberships && StudentOf(s.groupings, assignmentId, s.memberships[k])
                  && s.memberships[k].userId == user
  {
    var ids := StudentMemberships(s, assignmentId);
    var users := GroupedStudents(s, assignmentId);
    KeysWhereComplete(s.memberships, m => StudentOf(s.groupings, assignmentId, m), true, s.nextMembership);
    if user in users {
      var i :| 0 <= i < |users| && users[i] == user;
      assert ids[i] in s.memberships && StudentOf(s.groupings, assignmentId, s.memberships[ids[i]]);
    }
    if exists k :: k in s.memberships && StudentOf(s.groupings, assignmentId, s.memberships[k])
                   && s.memberships[k].userId == user {
      var k :| k in s.memberships && StudentOf(s.groupings, assignmentId, s.memberships[k])
               && s.memberships[k].userId == user;
      assert k in ids;
      var i :| 0 <= i < |ids| && ids[i] == k;
      assert users[i] == user;
    }
  }

  /** Grouped and ungrouped students split the student table: a student is
      ungrouped exactly when it is not grouped, and the ungrouped list keeps
      the table's order and multiplicities. */
  lemma GroupedUngroupedPartition(s: State, assignmentId: nat)
    ensures var grouped := GroupedStudents(s, assignmentId);
      var ungrouped := UngroupedStudents(s, assignmentId);
      && (forall st :: st in s.students ==> (st in ungrouped <==> st.id !in grouped))
      && (forall st :: st in ungrouped ==> st in s.students)
      && (forall st :: multiset(ungrouped)[st] == if st.id in grouped then 0 else multiset(s.students)[st])
  {
    var grouped := GroupedStudents(s, assignmentId);
    forall st ensures multiset(UngroupedStudents(s, assignmentId))[st]
                      == if st.id in grouped then 0 else multiset(s.students)[st] {
      KeepCount(s.students, NotIn(grouped), st);
    }
  }

  // ----- Valid and invalid groupings -----

  /** The grouping and type of a membership. */
  function Slot(m: Membership): (nat, MemberKind) {
    (m.groupingId, m.kind)
  }

  /** The memberships of one type in a grouping, in id order. */
  function MembersOfKind(s: State, groupingId: nat, kind: MemberKind): seq<nat> {
    KeysWhere(s.memberships, Slot, (groupingId, kind), s.nextMembership)
  }

  /** `grouping.student_memberships.count`: all statuses count. */
  function StudentCount(s: State, groupingId: nat): nat {
    |MembersOfKind(s, groupingId, StudentMembership)|
  }

  predicate IsValid(s: State, a: Assignment, groupingId: nat)
    requires groupingId in s.groupings
  {
    s.groupings[groupingId].adminApproved || StudentCount(s, groupingId) >= a.groupMin
  }

  /** `valid_groupings`: the approved groupings and those with at least
      `group_min` student memberships, in id order. */
  function ValidGroupings(s: State, a: Assignment): seq<nat> {
    var gs := GroupingsOf(s, a.id);
    Keep(gs, ValidIn(s, a))
  }

  function ValidIn(s: State, a: Assignment): nat -> bool {
    g => g in s.groupings && IsValid(s, a, g)
  }

  /** `invalid_groupings`: `groupings - valid_groupings`. */
  function InvalidGroupings(s: State, a: Assignment): seq<nat> {
    Minus(GroupingsOf(s, a.id), ValidGroupings(s, a))
  }

  /** Valid and invalid groupings split the assignment's groupings, each
      listed once, in id order. */
  lemma ValidInvalidPartition(s: State, a: Assignment)
    requires Wf(s)
    ensures var all := GroupingsOf(s, a.id);
      var valid := ValidGroupings(s, a);
      var invalid := InvalidGroupings(s, a);
      && Increasing(valid) && Increasing(invalid)
      && (forall g :: g in all <==> g in s.groupings && s.groupings[g].assignmentId == a.id)
      && (forall g :: g in valid <==> g in all && IsValid(s, a, g))
      && (forall g :: g in invalid <==> g in all && !IsValid(s, a, g))
  {
    var all := GroupingsOf(s, a.id);
    KeysWhereComplete(s.groupings, AssignmentOf, a.id, s.nextGrouping);
    KeysWhereIncreasing(s.groupings, AssignmentOf, a.id, s.nextGrouping);
    KeepIncreasing(all, ValidIn(s, a));
    MinusIncreasing(all, ValidGroupings(s, a));
  }

  /** The student count is the number of student membership rows of the
      grouping. */
  lemma StudentCountIsCardinality(s: State, groupingId: nat)
    requires Wf(s)
    ensures StudentCount(s, groupingId) ==
      |set k | k in s.memberships && Slot(s.memberships[k]) == (groupingId, StudentMembership)|
  {
    var ids := MembersOfKind(s, groupingId, StudentMembership);
    KeysWhereComplete(s.memberships, Slot, (groupingId, StudentMembership), s.nextMembership);
    KeysWhereIncreasing(s.memberships, Slot, (groupingId, StudentMembership), s.nextMembership);
    IncreasingCard(ids);
    assert (set k | k in s.memberships && Slot(s.memberships[k]) == (groupingId, StudentMembership))
        == Elems(ids);
  }

  // ----- Assigned and unassigned groupings -----

  /** The grouping has at least one TA membership. */
  predicate HasTa(s: State, groupingId: nat) {
    MembersOfKind(s, groupingId, TaMembership) != []
  }

  /** `assigned_groupings`: the groupings joined with a TA membership, each
      once (`uniq`), in id order. */
  function AssignedGroupings(s: State, assignmentId: nat): seq<nat> {
    Keep(GroupingsOf(s, assignmentId), WithTa(s))
  }

  function WithTa(s: State): nat -> bool {
    (g: nat) => HasTa(s, g)
  }

  /** `unassigned_groupings`: `groupings - assigned_groupings`. */
  function UnassignedGroupings(s: State, assignmentId: nat): seq<nat> {
    Minus(GroupingsOf(s, assignmentId), AssignedGroupings(s, assignmentId))
  }

  /** A grouping has a TA exactly when a TA membership row points at it. */
  lemma HasTaSpec(s: State, groupingId: nat)
    requires Wf(s)
    ensures HasTa(s, groupingId) <==>
      exists k :: k in s.memberships && s.memberships[k].groupingId == groupingId
                  && s.memberships[k].kind == TaMembership
  {
    var ids := MembersOfKind(s, groupingId, TaMembership);
    KeysWhereComplete(s.memberships, Slot, (groupingId, TaMembership), s.nextMembership);
    if ids != [] {
      assert Slot(s.memberships[ids[0]]) == (groupingId, TaMembership);
    }
    if exists k :: k in s.memberships && s.memberships[k].groupingId == groupingId
                   && s.memberships[k].kind == TaMembership {
      var k :| k in s.memberships && s.memberships[k].groupingId == groupingId
               && s.memberships[k].kind == TaMembership;
      assert Slot(s.memberships[k]) == (groupingId, TaMembership);
      assert k in ids;
    }
  }

  /** Assigned and unassigned groupings split the assignment's groupings,
      each listed once, in id order. */
  lemma AssignedUnassignedPartition(s: State, assignmentId: nat)
    ensures var all := GroupingsOf(s, assignmentId);
      var withTa := AssignedGroupings(s, assignmentId);
      var unassigned := UnassignedGroupings(s, assignmentId);
      && Increasing(withTa) && Increasing(unassigned)
      && (forall g :: g in withTa <==> g in all && HasTa(s, g))
      && (forall g :: g in unassigned <==> g in all && !HasTa(s, g))
  {
    var all := GroupingsOf(s, assignmentId);
    KeysWhereIncreasing(s.groupings, AssignmentOf, assignmentId, s.nextGrouping);
    KeepIncreasing(all, WithTa(s));
    MinusIncreasing(all, AssignedGroupings(s, assignmentId));
  }
}

=== FILE: reports.dfy ===
/**
 The export script of an assignment's submissions and the replacement of its
 submission rule.
 */
module Reports {
  import opened Entities
  import opened Store
  import opened Lists
  import opened Text

  const ExportPrefix: string := "svn export -r "

  /** One export line: revision, repository URL and group name. */
  function SvnCommand(revision: nat, url: string, name: string): string {
    ExportPrefix + NatToString(revision) + " " + url + " " + name
  }

  /** The groupings' rows all exist and point at existing groups. */
  predicate Linked(s: State, ids: seq<nat>) {
    forall i :: 0 <= i < |ids| ==> ids[i] in s.groupings && s.groupings[ids[i]].groupId in s.groups
  }

  /** The export line of one grouping whose used submission exists; `url(g)`
      is `g.repository_external_access_url`. */
  function CommandOf(s: State, g: nat, sub: Submission, url: Group -> string): string
    requires g in s.groupings && s.groupings[g].groupId in s.groups
  {
    var group := s.groups[s.groupings[g].groupId];
    SvnCommand(sub.revisionNumber, url(group), group.name)
  }

  /** The loop of `get_svn_commands` over the groupings `ids`: a grouping
      without a used submission adds no line. */
  function SvnCommands(s: State, ids: seq<nat>, used: nat -> Option<Submission>, url: Group -> string): (r: seq<string>)
    requires Linked(s, ids)
    ensures |r| <= |ids|
    decreases |ids|
  {
    if ids == [] then []
    else
      var rest := SvnCommands(s, ids[1..], used, url);
      var sub := used(ids[0]);
      if sub.None? then rest else [CommandOf(s, ids[0], sub.value, url)] + rest
  }

  /** `get_svn_commands`: one line per grouping of the assignment that has a
      used submission, in grouping order. */
  function GetSvnCommands(s: State, a: Assignment, used: nat -> Option<Submission>, url: Group -> string): seq<string>
    requires Wf(s)
  {
    var ids := GroupingsOf(s, a.id);
    assert Linked(s, ids);
    SvnCommands(s, ids, used, url)
  }

  function HasUsed(used: nat -> Option<Submission>): nat -> bool {
    (g: nat) => used(g).Some?
  }

  /** The lines are those of the groupings with a used submission, taken in
      order: the loop is a filter followed by a map. */
  lemma {:induction false} SvnCommandsSpec(s: State, ids: seq<nat>, used: nat -> Option<Submission>, url: Group -> string)
    requires Linked(s, ids)
    ensures var kept := Keep(ids, HasUsed(used));
      var r := SvnCommands(s, ids, used, url);
      && |r| == |kept|
      && (forall j :: 0 <= j < |kept| ==>
            && used(kept[j]).Some? && kept[j] in s.groupings && s.groupings[kept[j]].groupId in s.groups
            && r[j] == CommandOf(s, kept[j], used(kept[j]).value, url))
    decreases |ids|
  {
    if ids != [] {
      var tail := ids[1..];
      assert Linked(s, tail) by {
        forall i | 0 <= i < |tail| ensures tail[i] == ids[i + 1] { }
      }
      SvnCommandsSpec(s, tail, used, url);
      var kept, keptTail := Keep(ids, HasUsed(used)), Keep(tail, HasUsed(used));
      var r, rest := SvnCommands(s, ids, used, url), SvnCommands(s, tail, used, url);
      if used(ids[0]).Some? {
        assert kept == [ids[0]] + keptTail;
        assert r == [CommandOf(s, ids[0], used(ids[0]).value, url)] + rest;
      } else {
        assert kept == keptTail && r == rest;
      }
    }
  }

  /** The first space of `x` splits it into the text before and after it. */
  function SplitAtSpace(x: string): (r: Option<(string, string)>)
    ensures r.Some? ==> ' ' !in r.value.0 && x == r.value.0 + " " + r.value.1
    ensures r.None? <==> ' ' !in x
  {
    if x == [] then None
    else if x[0] == ' ' then Some(([], x[1..]))
    else match SplitAtSpace(x[1..])
      case None => None
      case Some(p) => Some(([x[0]] + p.0, p.1))
  }

  /** Reads an export line back into revision, repository URL and group name. */
  function ParseSvnCommand(line: string): Option<(nat, string, string)> {
    var n := |ExportPrefix|;
    if |line| < n || line[..n] != ExportPrefix then None
    else match SplitAtSpace(line[n..])
      case None => None
      case Some(p) =>
        if p.0 == [] || exists i :: 0 <= i < |p.0| && !IsDigit(p.0[i]) then None
        else match SplitAtSpace(p.1)
          case None => None
          case Some(q) => Some((ParseNat(p.0), q.0, q.1))
  }

  /** Text without spaces, a space, then anything, splits back into its parts. */
  lemma {:induction false} SplitAtSpaceJoin(a: string, b: string)
    requires ' ' !in a
    ensures SplitAtSpace(a + " " + b) == Some((a, b))
    decreases |a|
  {
    var x := a + " " + b;
    if a == [] {
      assert x[1..] == b;
    } else {
      var y := a[1..] + " " + b;
      SplitAtSpaceJoin(a[1..], b);
      assert x == [a[0]] + y;
      assert x[0] == a[0] && x[1..] == y;
      assert [a[0]] + a[1..] == a;
    }
  }

  /** An export line names its revision, URL and group unambiguously, as
      long as the URL holds no space. */
  lemma SvnCommandRoundTrip(revision: nat, url: string, name: string)
    requires ' ' !in url
    ensures ParseSvnCommand(SvnCommand(revision, url, name)) == Some((revision, url, name))
  {
    var digits := NatToString(revision);
    var line := SvnCommand(revision, url, name);
    var n := |ExportPrefix|;
    assert line == ExportPrefix + (digits + " " + (url + " " + name));
    assert line[..n] == ExportPrefix;
    assert line[n..] == digits + " " + (url + " " + name);
    assert ' ' !in digits by {
      forall i | 0 <= i < |digits| ensures digits[i] != ' ' {
        assert IsDigit(digits[i]);
      }
    }
    SplitAtSpaceJoin(digits, url + " " + name);
    SplitAtSpaceJoin(url, name);
    ParseNatToString(revision);
  }

  /** `replace_submission_rule`: the assignment afterwards, and the rule it
      destroyed, if it had one. */
  function ReplaceSubmissionRule(a: Assignment, rule: SubmissionRule): (r: (Assignment, Option<SubmissionRule>))
    ensures r.0.submissionRule == Some(rule)
    ensures r.0 == a.(submissionRule := r.0.submissionRule)
    ensures r.1 == a.submissionRule
  {
    if a.submissionRule.None? then (a.(submissionRule := Some(rule)), None)
    else (a.(submissionRule := Some(rule)), a.submissionRule)
  }

  /** Replacing twice is replacing once with the later rule; the second
      replacement destroys the first new rule. */
  lemma ReplaceSubmissionRuleTwice(a: Assignment, first: SubmissionRule, second: SubmissionRule)
    ensures var once := ReplaceSubmissionRule(a, first).0;
      ReplaceSubmissionRule(once, second) == (ReplaceSubmissionRule(a, second).0, Some(first))
  {
  }
}

=== FILE: results.dfy ===
/**
 Marks: the total an assignment is marked out of, and the class average of
 the released results, in Ruby's integer arithmetic.
 */
module Results {
  import opened Entities
  import opened Store
  import opened Lists

  /** The sum of a list of integers. */
  function Sum(xs: seq<int>): int {
    if xs == [] then 0 else Sum(xs[..|xs| - 1]) + xs[|xs| - 1]
  }

  /** What the assignment is marked out of: four marks per unit of weight of
      each rubric criterion. */
  function TotalMarkOf(a: Assignment): int {
    4 * Sum(a.rubricWeights)
  }

  /** `total_criteria_weight`: the SQL sum of the rubric criteria's weights. */
  function TotalCriteriaWeight(a: Assignment): int {
    Sum(a.rubricWeights)
  }

  /** `total_mark`: the loop over the rubric criteria, four marks per unit
      of weight, so four times `total_criteria_weight`. */
  method TotalMark(a: Assignment) returns (total: int)
    ensures total == 4 * Sum(a.rubricWeights)
    ensures total == 4 * TotalCriteriaWeight(a)
  {
    var weights := a.rubricWeights;
    total := 0;
    var i := 0;
    while i < |weights|
      invariant 0 <= i <= |weights|
      invariant total == 4 * Sum(weights[..i])
    {
      assert weights[..i + 1][..i] == weights[..i];
      total := total + weights[i] * 4;
      i := i + 1;
    }
    assert weights[..i] == weights;
  }

  /** Ruby's `Integer#/`: the quotient rounded towards negative infinity. */
  function FloorDiv(a: int, b: int): (q: int)
    requires b != 0
    ensures b > 0 ==> b * q <= a < b * q + b
    ensures b < 0 ==> b * q + b < a <= b * q
  {
    if b > 0 then a / b else (-a) / (-b)
  }

  /** The used submission has a result, and it is released to students. */
  predicate HasReleased(sub: Option<Submission>) {
    sub.Some? && sub.value.result.Some? && sub.value.result.value.releasedToStudents
  }

  function ReleasedIn(used: nat -> Option<Submission>): nat -> bool {
    (g: nat) => HasReleased(used(g))
  }

  /** The released marks of the groupings `ids`, in order; `used(g)` is
      `get_submission_used` of grouping `g`. */
  function ReleasedMarks(ids: seq<nat>, used: nat -> Option<Submission>): (r: seq<int>)
    ensures |r| <= |ids|
    decreases |ids|
  {
    if ids == [] then []
    else
      var rest := ReleasedMarks(ids[1..], used);
      var sub := used(ids[0]);
      if HasReleased(sub) then [sub.value.result.value.totalMark] + rest else rest
  }

  /** The loop is a filter followed by a map: the `j`-th mark is the mark of
      the `j`-th grouping with a released result. */
  lemma {:induction false} ReleasedMarksAt(ids: seq<nat>, used: nat -> Option<Submission>)
    ensures var kept := Keep(ids, ReleasedIn(used));
      var r := ReleasedMarks(ids, used);
      && |r| == |kept|
      && forall j :: 0 <= j < |kept| ==>
           HasReleased(used(kept[j])) && r[j] == used(kept[j]).value.result.value.totalMark
    decreases |ids|
  {
    if ids != [] {
      var tail := ids[1..];
      ReleasedMarksAt(tail, used);
      var kept, keptTail := Keep(ids, ReleasedIn(used)), Keep(tail, ReleasedIn(used));
      var r, rest := ReleasedMarks(ids, used), ReleasedMarks(tail, used);
      if HasReleased(used(ids[0])) {
        assert kept == [ids[0]] + keptTail;
        assert r == [used(ids[0]).value.result.value.totalMark] + rest;
      } else {
        assert kept == keptTail && r == rest;
      }
    }
  }

  /** One mark per grouping with a released result, in order, and only
      theirs: the marks, and so their sum, are fixed by the groupings. */
  lemma {:induction false} ReleasedMarksSpec(ids: seq<nat>, used: nat -> Option<Submission>)
    ensures var kept := Keep(ids, ReleasedIn(used));
      var r := ReleasedMarks(ids, used);
      && |r| == |kept|
      && (forall j :: 0 <= j < |kept| ==>
            HasReleased(used(kept[j])) && r[j] == used(kept[j]).value.result.value.totalMark)
      && forall m :: m in r <==>
           exists i :: 0 <= i < |ids| && HasReleased(used(ids[i])) && used(ids[i]).value.result.value.totalMark == m
    decreases |ids|
  {
    ReleasedMarksAt(ids, used);
    if ids != [] {
      var tail := ids[1..];
      ReleasedMarksSpec(tail, used);
      var r := ReleasedMarks(ids, used);
      forall m | m in r
        ensures exists i :: 0 <= i < |ids| && HasReleased(used(ids[i])) && used(ids[i]).value.result.value.totalMark == m
      {
        if m !in ReleasedMarks(tail, used) {
          assert HasReleased(used(ids[0])) && used(ids[0]).value.result.value.totalMark == m;
        } else {
          var i :| 0 <= i < |tail| && HasReleased(used(tail[i])) && used(tail[i]).value.result.value.totalMark == m;
          assert ids[i + 1] == tail[i];
        }
      }
      forall m | exists i :: 0 <= i < |ids| && HasReleased(used(ids[i])) && used(ids[i]).value.result.value.totalMark == m
        ensures m in r
      {
        var i :| 0 <= i < |ids| && HasReleased(used(ids[i])) && used(ids[i]).value.result.value.totalMark == m;
        if i > 0 {
          assert tail[i - 1] == ids[i];
        }
      }
    }
  }

  /** What `set_results_average` does: nothing when no result is released
      (it answers `false`), otherwise it sets the average, or raises on a
      division by zero. */
  datatype AverageOutcome = NothingReleased | Averaged(assignment: Assignment) | DivideByZero

  /** `set_results_average`: the released marks of the assignment's
      groupings, averaged by integer division and turned into a percentage of
      the total mark, again by integer division; a zero sum gives 0. */
  function SetResultsAverage(s: State, a: Assignment, used: nat -> Option<Submission>): (r: AverageOutcome)
    ensures var marks := ReleasedMarks(GroupingsOf(s, a.id), used);
      && (r.NothingReleased? <==> marks == [])
      && (r.DivideByZero? <==> marks != [] && Sum(marks) != 0 && TotalMarkOf(a) == 0)
      && (r.Averaged? ==> r.assignment.resultsAverage.Some?
                          && r.assignment == a.(resultsAverage := r.assignment.resultsAverage))
  {
    var marks := ReleasedMarks(GroupingsOf(s, a.id), used);
    var total := TotalMarkOf(a);
    if marks == [] then NothingReleased
    else if Sum(marks) == 0 then Averaged(a.(resultsAverage := Some(0)))
    else if total == 0 then DivideByZero
    else Averaged(a.(resultsAverage := Some(FloorDiv(FloorDiv(Sum(marks), |marks|) * 100, total))))
  }

  /** The stored average is the mean mark rounded down, as a percentage of
      the total mark rounded down: `avg` is the largest integer with
      `count * avg <= sum`, and the percentage `p` the largest with
      `total * p <= avg * 100` (the smallest, for a negative total). */
  lemma SetResultsAveragePercent(s: State, a: Assignment, used: nat -> Option<Submission>)
    requires SetResultsAverage(s, a, used).Averaged?
    ensures var marks := ReleasedMarks(GroupingsOf(s, a.id), used);
      var sum, count, total := Sum(marks), |marks|, TotalMarkOf(a);
      var p := SetResultsAverage(s, a, used).assignment.resultsAverage.value;
      && count > 0
      && (sum == 0 ==> p == 0)
      && (sum != 0 ==> exists avg ::
            && count * avg <= sum < count * avg + count
            && (total > 0 ==> total * p <= avg * 100 < total * p + total)
            && (total < 0 ==> total * p + total < avg * 100 <= total * p))
  {
    var marks := ReleasedMarks(GroupingsOf(s, a.id), used);
    if Sum(marks) != 0 {
      var avg := FloorDiv(Sum(marks), |marks|);
      assert |marks| * avg <= Sum(marks) < |marks| * avg + |marks|;
    }
  }

  /** Marks between 0 and the total sum to between 0 and `count * total`. */
  lemma {:induction false} SumBounds(xs: seq<int>, total: int)
    requires forall i :: 0 <= i < |xs| ==> 0 <= xs[i] <= total
    ensures 0 <= Sum(xs) <= |xs| * total
    decreases |xs|
  {
    if xs != [] {
      SumBounds(xs[..|xs| - 1], total);
    }
  }

  /** When every released mark lies between 0 and the total mark, the stored
      average is a percentage between 0 and 100. */
  lemma SetResultsAverageBounds(s: State, a: Assignment, used: nat -> Option<Submission>)
    requires SetResultsAverage(s, a, used).Averaged?
    requires forall m :: m in ReleasedMarks(GroupingsOf(s, a.id), used) ==> 0 <= m <= TotalMarkOf(a)
    ensures 0 <= SetResultsAverage(s, a, used).assignment.resultsAverage.value <= 100
  {
    var marks := ReleasedMarks(GroupingsOf(s, a.id), used);
    var sum, total := Sum(marks), TotalMarkOf(a);
    if sum != 0 {
      assert total != 0;
      assert marks[0] in marks;
      forall i | 0 <= i < |marks| ensures 0 <= marks[i] <= total {
        assert marks[i] in marks;
      }
      SumBounds(marks, total);
      PercentBounds(sum, |marks|, total);
    }
  }

  /** The percentage of a mean of marks between 0 and `total` lies between 0 and 100. */
  lemma PercentBounds(sum: int, count: int, total: int)
    requires count > 0 && total > 0 && 0 <= sum <= count * total
    ensures 0 <= FloorDiv(FloorDiv(sum, count) * 100, total) <= 100
  {
    var avg := FloorDiv(sum, count);
    QuotientBounds(sum, count, total, avg);
    QuotientBounds(avg * 100, total, 100, FloorDiv(avg * 100, total));
  }

  /** A floor quotient of a number between 0 and `d * m` by `d` lies between 0 and `m`. */
  lemma QuotientBounds(n: int, d: int, m: int, q: int)
    requires d > 0 && 0 <= n <= d * m
    requires d * q <= n < d * q + d
    ensures 0 <= q <= m
  {
    if q < 0 {
      MulMono(d, q, -1);
      assert false;
    }
    if q > m {
      assert d * (m + 1) == d * m + d;
      MulMono(d, m + 1, q);
      assert false;
    }
  }

  /** Multiplying by a non-negative number keeps the order. */
  lemma {:induction false} MulMono(d: int, x: int, y: int)
    requires d >= 0 && x <= y
    ensures d * x <= d * y
    decreases y - x
  {
    if x < y {
      MulMono(d, x, y - 1);
      assert d * y == d * (y - 1) + d;
    }
  }
}

=== FILE: store.dfy ===
/**
 Lookups and insertions on the database snapshot. Rows come back in ascending
 id order, which is the order in which the model's operations visit them.
 */
module Store {
  import opened Entities

  predicate Increasing(r: seq<nat>) {
    forall i, j :: 0 <= i < j < |r| ==> r[i] < r[j]
  }

  /** The ids `lo`, `lo + 1`, ..., `hi - 1`. */
  function Range(lo: nat, hi: nat): (r: seq<nat>)
    requires lo <= hi
    ensures |r| == hi - lo
    ensures forall i :: 0 <= i < |r| ==> r[i] == lo + i
    decreases hi - lo
  {
    if lo == hi then [] else Range(lo, hi - 1) + [hi - 1]
  }

  /** The ids below `n` of the rows whose `key` column equals `v`, ascending. */
  function KeysWhere<T, K(==)>(m: map<nat, T>, key: T -> K, v: K, n: nat): (r: seq<nat>)
    ensures forall i :: 0 <= i < |r| ==> r[i] < n && r[i] in m && key(m[r[i]]) == v
  {
    if n == 0 then []
    else
      var r0 := KeysWhere(m, key, v, n - 1);
      if n - 1 in m && key(m[n - 1]) == v then r0 + [n - 1] else r0
  }

  /** Every matching row below the bound is listed. */
  lemma {:induction false} KeysWhereComplete<T, K>(m: map<nat, T>, key: T -> K, v: K, n: nat)
    ensures forall k :: 0 <= k < n && k in m && key(m[k]) == v ==> k in KeysWhere(m, key, v, n)
  {
    if n > 0 {
      KeysWhereComplete(m, key, v, n - 1);
    }
  }

  /** Rows are listed in ascending id order, each once. */
  lemma {:induction false} KeysWhereIncreasing<T, K>(m: map<nat, T>, key: T -> K, v: K, n: nat)
    ensures Increasing(KeysWhere(m, key, v, n))
  {
    if n > 0 {
      KeysWhereIncreasing(m, key, v, n - 1);
    }
  }

  /** Rows at or above `n` do not matter to an enumeration bounded by `n`. */
  lemma {:induction false} KeysWhereAgree<T, K>(m: map<nat, T>, m': map<nat, T>, key: T -> K, v: K, n: nat)
    requires forall k :: 0 <= k < n ==> (k in m <==> k in m')
    requires forall k :: 0 <= k < n && k in m ==> k in m' && m'[k] == m[k]
    ensures KeysWhere(m', key, v, n) == KeysWhere(m, key, v, n)
  {
    if n > 0 {
      KeysWhereAgree(m, m', key, v, n - 1);
    }
  }

  /** Raising the bound over rows that do not match changes nothing. */
  lemma {:induction false} KeysWhereSkip<T, K>(m: map<nat, T>, key: T -> K, v: K, n: nat, n': nat)
    requires n <= n'
    requires forall k :: n <= k < n' && k in m ==> key(m[k]) != v
    ensures KeysWhere(m, key, v, n') == KeysWhere(m, key, v, n)
    decreases n' - n
  {
    if n < n' {
      KeysWhereSkip(m, key, v, n, n' - 1);
    }
  }

  /** Raising the bound over a block of matching rows appends the block. */
  lemma {:induction false} KeysWhereBlock<T, K>(m: map<nat, T>, key: T -> K, v: K, n: nat, n': nat)
    requires n <= n'
    requires forall k :: n <= k < n' ==> k in m && key(m[k]) == v
    ensures KeysWhere(m, key, v, n') == KeysWhere(m, key, v, n) + Range(n, n')
    decreases n' - n
  {
    if n < n' {
      KeysWhereBlock(m, key, v, n, n' - 1);
      var a, b := KeysWhere(m, key, v, n), Range(n, n' - 1);
      assert n' - 1 in m && key(m[n' - 1]) == v;
      assert KeysWhere(m, key, v, n') == (a + b) + [n' - 1];
      assert (a + b) + [n' - 1] == a + (b + [n' - 1]);
      assert b + [n' - 1] == Range(n, n');
    }
  }

  /** The assignment's groupings, in id order. */
  function GroupingsOf(s: State, assignmentId: nat): seq<nat> {
    KeysWhere(s.groupings, AssignmentOf, assignmentId, s.nextGrouping)
  }

  /** The memberships of a grouping (students and TAs), in id order. */
  function MembersOf(s: State, groupingId: nat): seq<nat> {
    KeysWhere(s.memberships, GroupingOf, groupingId, s.nextMembership)
  }

  function Seats(m: map<nat, Membership>, ids: seq<nat>): (r: seq<Seat>)
    requires forall i :: 0 <= i < |ids| ==> ids[i] in m
    ensures |r| == |ids|
    decreases |ids|
  {
    if ids == [] then [] else Seats(m, ids[..|ids| - 1]) + [SeatOf(m[ids[|ids| - 1]])]
  }

  lemma {:induction false} SeatsAt(m: map<nat, Membership>, ids: seq<nat>)
    requires forall i :: 0 <= i < |ids| ==> ids[i] in m
    ensures forall i :: 0 <= i < |ids| ==> Seats(m, ids)[i] == SeatOf(m[ids[i]])
    decreases |ids|
  {
    if ids != [] {
      SeatsAt(m, ids[..|ids| - 1]);
    }
  }

  /** User, type and status of every membership of a grouping, in id order. */
  function SeatsOf(s: State, groupingId: nat): seq<Seat> {
    Seats(s.memberships, MembersOf(s, groupingId))
  }

  /** `Group.find(:first, :conditions => {:group_name => name})`: the group
      with the smallest id carrying that name. */
  function FirstGroupNamed(s: State, name: string): (r: Option<nat>)
    requires Wf(s)
    ensures r.Some? ==> r.value in s.groups && s.groups[r.value].name == name
    ensures r.Some? ==> forall k :: k in s.groups && s.groups[k].name == name ==> r.value <= k
    ensures r.None? <==> forall k :: k in s.groups ==> s.groups[k].name != name
  {
    var ks := KeysWhere(s.groups, NameOf, name, s.nextGroup);
    KeysWhereComplete(s.groups, NameOf, name, s.nextGroup);
    KeysWhereIncreasing(s.groups, NameOf, name, s.nextGroup);
    if ks == [] then None else Some(ks[0])
  }

  /** `Student.find_by_user_name(name)`: the first student with that user name. */
  function FindStudent(students: seq<Student>, name: string): (r: Option<Student>)
    ensures r.Some? ==> r.value in students && r.value.userName == name
    ensures r.None? <==> forall i :: 0 <= i < |students| ==> students[i].userName != name
  {
    if students == [] then None
    else if students[0].userName == name then Some(students[0])
    else FindStudent(students[1..], name)
  }

  /** Saves a new group under the next group id. */
  function NewGroup(s: State, g: Group): State {
    s.(groups := s.groups[s.nextGroup := g], nextGroup := s.nextGroup + 1)
  }

  /** Saving a group keeps the database consistent, under an id no row had. */
  lemma NewGroupWf(s: State, g: Group)
    requires Wf(s)
    ensures Wf(NewGroup(s, g)) && s.nextGroup !in s.groups
  {
  }

  /** Saves a new grouping under the next grouping id. */
  function NewGrouping(s: State, g: Grouping): State {
    s.(groupings := s.groupings[s.nextGrouping := g], nextGrouping := s.nextGrouping + 1)
  }

  /** Saving a grouping for an existing group keeps the database consistent,
      under an id no row had. */
  lemma NewGroupingWf(s: State, g: Grouping)
    requires Wf(s) && g.groupId in s.groups
    ensures Wf(NewGrouping(s, g)) && s.nextGrouping !in s.groupings
  {
  }

  /** A grouping just saved has no memberships. */
  lemma NewGroupingEmpty(s: State, g: Grouping)
    requires Wf(s)
    ensures MembersOf(NewGrouping(s, g), s.nextGrouping) == []
  {
    var r := NewGrouping(s, g);
    KeysWhereSkip(r.memberships, GroupingOf, s.nextGrouping, 0, r.nextMembership);
  }

  /** The membership row a seat becomes once attached to `groupingId`. */
  function Seated(groupingId: nat, seat: Seat): Membership {
    Membership(seat.0, groupingId, seat.1, seat.2)
  }

  /** Saves a membership of `groupingId` with the given user, type and status. */
  function AddMembership(s: State, groupingId: nat, seat: Seat): State {
    s.(memberships := s.memberships[s.nextMembership := Seated(groupingId, seat)],
       nextMembership := s.nextMembership + 1)
  }

  /** Saves one membership of `groupingId` per seat, in order. */
  function AppendMemberships(s: State, groupingId: nat, seats: seq<Seat>): (r: State)
    ensures r.groups == s.groups && r.nextGroup == s.nextGroup
    ensures r.groupings == s.groupings && r.nextGrouping == s.nextGrouping
    ensures r.students == s.students
    ensures r.nextMembership == s.nextMembership + |seats|
    decreases |seats|
  {
    if seats == [] then s
    else AppendMemberships(AddMembership(s, groupingId, seats[0]), groupingId, seats[1..])
  }

  /** The membership table after appending: the seats occupy the ids from
      `nextMembership` on, in order, and every other row is as it was. */
  lemma {:induction false} AppendMembershipsRows(s: State, groupingId: nat, seats: seq<Seat>)
    ensures var r := AppendMemberships(s, groupingId, seats);
      && (forall k :: k in r.memberships <==> k in s.memberships || s.nextMembership <= k < r.nextMembership)
      && (forall k :: k in s.memberships && !(s.nextMembership <= k < r.nextMembership) ==>
            r.memberships[k] == s.memberships[k])
      && (forall k :: s.nextMembership <= k < r.nextMembership ==>
            r.memberships[k] == Seated(groupingId, seats[k - s.nextMembership]))
    decreases |seats|
  {
    if seats != [] {
      var s1 := AddMembership(s, groupingId, seats[0]);
      var tail := seats[1..];
      AppendMembershipsRows(s1, groupingId, tail);
      var r := AppendMemberships(s1, groupingId, tail);
      var lo := s.nextMembership;
      forall k | lo < k < r.nextMembership
        ensures r.memberships[k] == Seated(groupingId, seats[k - lo])
      {
        assert tail[k - (lo + 1)] == seats[k - lo];
      }
    }
  }

  /** Memberships of an existing grouping keep the database consistent. */
  lemma AppendMembershipsWf(s: State, groupingId: nat, seats: seq<Seat>)
    requires Wf(s) && groupingId in s.groupings
    ensures Wf(AppendMemberships(s, groupingId, seats))
  {
    AppendMembershipsRows(s, groupingId, seats);
  }

  /** Appending memberships to one grouping leaves every other grouping's
      memberships as they were. */
  lemma AppendMembershipsOthers(s: State, groupingId: nat, seats: seq<Seat>)
    ensures forall h :: h != groupingId ==> MembersOf(AppendMemberships(s, groupingId, seats), h) == MembersOf(s, h)
  {
    var r := AppendMemberships(s, groupingId, seats);
    AppendMembershipsRows(s, groupingId, seats);
    forall h | h != groupingId
      ensures MembersOf(r, h) == MembersOf(s, h)
    {
      KeysWhereSkip(r.memberships, GroupingOf, h, s.nextMembership, r.nextMembership);
      KeysWhereAgree(s.memberships, r.memberships, GroupingOf, h, s.nextMembership);
    }
  }

  /** A grouping whose membership ids are unchanged, in a table that only
      grew, keeps its seats. */
  lemma SeatsOfFrame(s: State, r: State, h: nat)
    requires MembersOf(r, h) == MembersOf(s, h)
    requires forall k :: k in s.memberships ==> k in r.memberships && r.memberships[k] == s.memberships[k]
    ensures SeatsOf(r, h) == SeatsOf(s, h)
  {
    var ids := MembersOf(s, h);
    SeatsAt(s.memberships, ids);
    SeatsAt(r.memberships, ids);
  }

  /** A saved grouping is listed last among its assignment's groupings. */
  lemma NewGroupingListed(s: State, g: Grouping)
    ensures GroupingsOf(NewGrouping(s, g), g.assignmentId) == GroupingsOf(s, g.assignmentId) + [s.nextGrouping]
  {
    var r := NewGrouping(s, g);
    var n := s.nextGrouping;
    var a := g.assignmentId;
    assert r.nextGrouping == n + 1;
    assert r.groupings == s.groupings[n := g];
    KeysWhereAgree(s.groupings, r.groupings, AssignmentOf, a, n);
    assert n in r.groupings && AssignmentOf(r.groupings[n]) == a;
    KeysWhereBlock(r.groupings, AssignmentOf, a, n, n + 1);
    assert Range(n, n + 1) == [n];
    assert GroupingsOf(r, a) == KeysWhere(r.groupings, AssignmentOf, a, n + 1);
  }

  /** Saving a grouping leaves the grouping list of every other assignment as it was. */
  lemma NewGroupingOthers(s: State, g: Grouping, b: nat)
    requires b != g.assignmentId
    ensures GroupingsOf(NewGrouping(s, g), b) == GroupingsOf(s, b)
  {
    var r := NewGrouping(s, g);
    var n := s.nextGrouping;
    assert r.nextGrouping == n + 1;
    assert r.groupings == s.groupings[n := g];
    KeysWhereAgree(s.groupings, r.groupings, AssignmentOf, b, n);
    KeysWhereSkip(r.groupings, AssignmentOf, b, n, n + 1);
    assert GroupingsOf(r, b) == KeysWhere(r.groupings, AssignmentOf, b, n + 1);
  }

  /** Appending memberships to a grouping that had none lists exactly the new rows for it. */
  lemma AppendMembershipsFreshIds(s: State, groupingId: nat, seats: seq<Seat>)
    requires MembersOf(s, groupingId) == []
    ensures var r := AppendMemberships(s, groupingId, seats);
      MembersOf(r, groupingId) == Range(s.nextMembership, r.nextMembership)
  {
    var r := AppendMemberships(s, groupingId, seats);
    AppendMembershipsRows(s, groupingId, seats);
    var lo, hi := s.nextMembership, r.nextMembership;
    KeysWhereAgree(s.memberships, r.memberships, GroupingOf, groupingId, lo);
    forall k | lo <= k < hi
      ensures k in r.memberships && GroupingOf(r.memberships[k]) == groupingId
    {
      assert r.memberships[k] == Seated(groupingId, seats[k - lo]);
    }
    KeysWhereBlock(r.memberships, GroupingOf, groupingId, lo, hi);
    assert [] + Range(lo, hi) == Range(lo, hi);
  }

  /** Appending memberships to a grouping that had none gives it exactly the
      appended seats, in order. */
  lemma AppendMembershipsFresh(s: State, groupingId: nat, seats: seq<Seat>)
    requires MembersOf(s, groupingId) == []
    ensures SeatsOf(AppendMemberships(s, groupingId, seats), groupingId) == seats
  {
    var r := AppendMemberships(s, groupingId, seats);
    var lo := s.nextMembership;
    assert MembersOf(r, groupingId) == Range(lo, r.nextMembership) by {
      AppendMembershipsFreshIds(s, groupingId, seats);
    }
    AppendMembershipsRows(s, groupingId, seats);
    SeatsOfBlock(r.memberships, lo, r.nextMembership, groupingId, seats);
  }

  /** Rows saved at consecutive ids from `lo` read back as their seats. */
  lemma SeatsOfBlock(m: map<nat, Membership>, lo: nat, hi: nat, groupingId: nat, seats: seq<Seat>)
    requires hi == lo + |seats|
    requires forall k :: lo <= k < hi ==> k in m
    requires forall k :: lo <= k < hi ==> m[k] == Seated(groupingId, seats[k - lo])
    ensures Seats(m, Range(lo, hi)) == seats
  {
    var ids := Range(lo, hi);
    var got := Seats(m, ids);
    forall i | 0 <= i < |seats|
      ensures got[i] == seats[i]
    {
      var k := lo + i;
      assert ids[i] == k;
      assert m[k] == Seated(groupingId, seats[k - lo]);
      SeatsAt(m, ids);
    }
    assert |got| == |seats|;
  }
}

=== FILE: text.dfy ===
/**
 String helpers the assignment code leans on: Ruby's `String#strip`, the
 decimal rendering of an id (`Integer#to_s`), and the ordering of last names
 used when students are listed.
 */
module Text {

  /** The characters Ruby's `strip` treats as whitespace: space and the
      control characters tab, line feed, vertical tab, form feed, carriage return. */
  predicate IsSpace(c: char) {
    c == ' ' || '\t' <= c <= '\r'
  }

  predicate AllSpace(x: string) {
    forall i :: 0 <= i < |x| ==> IsSpace(x[i])
  }

  /** `String#lstrip`: `s` without its leading whitespace. */
  function StripLeft(s: string): string {
    if s != [] && IsSpace(s[0]) then StripLeft(s[1..]) else s
  }

  /** `String#rstrip`: `s` without its trailing whitespace. */
  function StripRight(s: string): string {
    if s != [] && IsSpace(s[|s| - 1]) then StripRight(s[..|s| - 1]) else s
  }

  /** `String#strip`: `s` without its leading and its trailing whitespace. */
  function Strip(s: string): string {
    StripRight(StripLeft(s))
  }

  /** `lstrip` removes a whitespace prefix and stops at the first other character. */
  lemma {:induction false} StripLeftSpec(s: string)
    ensures var r := StripLeft(s);
      && |r| <= |s| && r == s[|s| - |r|..] && AllSpace(s[..|s| - |r|])
      && (r == [] || !IsSpace(r[0]))
    decreases |s|
  {
    if s != [] && IsSpace(s[0]) {
      var t := s[1..];
      StripLeftSpec(t);
      var r := StripLeft(t);
      assert t[|t| - |r|..] == s[|s| - |r|..];
      assert s[..|s| - |r|] == [s[0]] + t[..|t| - |r|];
    }
  }

  /** `rstrip` removes a whitespace suffix and stops at the last other character. */
  lemma {:induction false} StripRightSpec(s: string)
    ensures var r := StripRight(s);
      && |r| <= |s| && r == s[..|r|] && AllSpace(s[|r|..])
      && (r == [] || !IsSpace(r[|r| - 1]))
    decreases |s|
  {
    if s != [] && IsSpace(s[|s| - 1]) {
      var init := s[..|s| - 1];
      StripRightSpec(init);
      var r := StripRight(init);
      assert init[..|r|] == s[..|r|];
      assert s[|r|..] == init[|r|..] + [s[|s| - 1]];
    }
  }

  /** The stripped string neither starts nor ends with whitespace, and it is
      the middle of `s` between a whitespace prefix and a whitespace suffix. */
  lemma StripSpec(s: string)
    ensures var r := Strip(s);
      && (r == [] || (!IsSpace(r[0]) && !IsSpace(r[|r| - 1])))
      && exists i, j :: 0 <= i <= j <= |s| && r == s[i..j] && AllSpace(s[..i]) && AllSpace(s[j..])
  {
    var l := StripLeft(s);
    var r := Strip(s);
    StripLeftSpec(s);
    StripRightSpec(l);
    var i := |s| - |l|;
    var j := i + |r|;
    assert r == s[i..j];
    assert s[j..] == l[|r|..];
    assert r != [] ==> r[0] == l[0];
  }

  lemma StripIdempotent(s: string)
    ensures Strip(Strip(s)) == Strip(s)
  {
    var r := Strip(s);
    StripSpec(s);
    assert StripLeft(r) == r;
    assert StripRight(r) == r;
  }

  predicate IsDigit(c: char) {
    '0' <= c <= '9'
  }

  function DigitChar(d: nat): (c: char)
    requires d < 10
    ensures IsDigit(c) && (c as int) - ('0' as int) == d
  {
    "0123456789"[d]
  }

  /** `Integer#to_s`: the decimal digits of `n`, most significant first. */
  function NatToString(n: nat): (r: string)
    ensures |r| >= 1
    ensures forall i :: 0 <= i < |r| ==> IsDigit(r[i])
    ensures |r| > 1 ==> r[0] != '0'
    decreases n
  {
    if n < 10 then [DigitChar(n)] else NatToString(n / 10) + [DigitChar(n % 10)]
  }

  function DigitValue(c: char): nat
    requires IsDigit(c)
  {
    (c as int) - ('0' as int)
  }

  /** The value a string of decimal digits denotes. */
  function ParseNat(s: string): nat
    requires forall i :: 0 <= i < |s| ==> IsDigit(s[i])
  {
    if s == [] then 0 else 10 * ParseNat(s[..|s| - 1]) + DigitValue(s[|s| - 1])
  }

  lemma {:induction false} ParseNatToString(n: nat)
    ensures ParseNat(NatToString(n)) == n
    decreases n
  {
    if n >= 10 {
      ParseNatToString(n / 10);
      var r := NatToString(n);
      assert r[..|r| - 1] == NatToString(n / 10);
    }
  }

  /** Distinct ids render as distinct strings. */
  lemma NatToStringInjective(m: nat, n: nat)
    requires m != n
    ensures NatToString(m) != NatToString(n)
  {
    ParseNatToString(m);
    ParseNatToString(n);
  }

  /** Character-code lexicographic order on strings, a prefix first. */
  predicate LexLe(a: string, b: string)
  {
    if a == [] then true
    else if b == [] then false
    else if a[0] != b[0] then a[0] < b[0]
    else LexLe(a[1..], b[1..])
  }

  lemma {:induction false} LexLeTotal(a: string, b: string)
    ensures LexLe(a, b) || LexLe(b, a)
  {
    if a != [] && b != [] && a[0] == b[0] {
      LexLeTotal(a[1..], b[1..]);
    }
  }

  lemma {:induction false} LexLeTransitive(a: string, b: string, c: string)
    requires LexLe(a, b) && LexLe(b, c)
    ensures LexLe(a, c)
  {
    if a != [] && b != [] && c != [] && a[0] == b[0] && b[0] == c[0] {
      LexLeTransitive(a[1..], b[1..], c[1..]);
    }
  }
}
